=== FILE: README.md ===
# income-tracker: payment extraction and deduplication, in Dafny

This project models the core of income-tracker. The tracker polls a mailbox
for payment notifications from Zelle, Venmo, Cash App and PayPal. It
classifies each message by provider and extracts an exact decimal amount and a
client name. It turns the message into a six-column row and appends the row to
a spreadsheet, unless a row with the same key is already there. A set of
processed message ids keeps it from handling a message twice.

The model is purely functional. The mailbox is two functions, one from
senders to message ids and one from ids to messages. The spreadsheet is a
sequence of rows. One polling cycle is a function from the state (processed
ids and spreadsheet) to a new state, a count and a trace of events. The earlier
single-file tracker (`payment_tracker.py`) is modelled next to the current one,
so that their differing policies can be stated as lemmas.

Files, one module each:

| file | module | models |
|---|---|---|
| `wrappers.dfy` | `Wrappers` | `Option` and `Result` |
| `text.dfy` | `Text` | `str.lower`, `str.isspace`, `str.strip`, substring `in`, `any` |
| `decimals.dfy` | `Decimals` | exact decimals (coefficient and scale), `Decimal(str)` on digit strings, rendering |
| `sorting.dfy` | `Sorting` | code-point string order and `sorted` |
| `payment.dfy` | `Payment` | `models/payment.py` |
| `processor.dfy` | `Processor` | `core/payment_processor.py` |
| `storage.dfy` | `Storage` | `storage/excel_handler.py` |
| `tracker.dfy` | `Tracker` | `core/tracker.py` (one cycle) |
| `legacy.dfy` | `Legacy` | `payment_tracker.py` |

Modelling choices:

- The amount expression `\$([0-9,]+\.?[0-9]*)` is modelled by hand as a
  left-to-right scanner with greedy runs. `Processor.IsLeftmostMatch` says
  declaratively which match `re.search` returns, and the scanner is proved to
  return exactly that match, which is unique.
- The name expression is not modelled as a regular expression. Its outcome
  (no match, or the tuple of captured groups) is a parameter of type
  `NameSearch`, and the model proves the group-selection rule applied to
  that outcome.
- Amounts are `Decimal(digits, scale)` with the exact value
  `digits / 10^scale`. The duplicate check compares values, so "75" and
  "75.00" are the same amount.
- The clock reading, the mailbox, the name search and whether the spreadsheet
  can be written are all parameters.

## Model

| member | source | states |
|---|---|---|
| Payment.SourcesEnumerated | src/income_tracker/models/payment.py:10-15 | exactly four providers, whose string values are pairwise distinct; the value determines the provider |
| Payment.ToDictColumns | src/income_tracker/models/payment.py:29-38 | the row has exactly the six column names, the Amount cell is the record's decimal unchanged, Source is the enum value, Date is the payment day, and Processed Date is the processing time to the second |
| Payment.MatchesSender | src/income_tracker/models/payment.py:50-52 | true iff some configured sender is a substring of the lower-cased From value |
| Payment.MatchesSubject | src/income_tracker/models/payment.py:54-56 | true iff some keyword is a substring of the lower-cased subject |
| Payment.MatchingIgnoresCase | src/income_tracker/models/payment.py:52-56 | strings that differ only in letter case get the same sender and subject answers |
| Payment.EmptyPatternNeverMatches | src/income_tracker/models/payment.py:52-56 | an empty sender or keyword collection never matches |
| Text.AnyOccurs | src/income_tracker/models/payment.py:52 | `any(n in hay ...)` is true iff some needle occurs contiguously in the text |
| Text.Contains | src/income_tracker/models/payment.py:52 | `needle in hay` is true iff the needle occurs at some position |
| Text.LowerIdentifiesCaseVariants | src/income_tracker/models/payment.py:52-56 | two strings lower-case to the same text iff they differ only in letter case |
| Text.Trim | src/income_tracker/core/payment_processor.py:107-108 | `strip` keeps a slice with only whitespace cut on either side; the result is empty iff the input is blank, otherwise it has no outer whitespace |
| Text.TrimIdempotent | src/income_tracker/core/payment_processor.py:107-108 | stripping twice is the same as stripping once |
| Processor.PatternTableWellFormed | src/income_tracker/core/payment_processor.py:26-53 | the table covers every provider once, each with non-empty senders and keywords, and all four share one amount expression |
| Processor.FirstMatch | src/income_tracker/core/payment_processor.py:65-68 | returns the first provider of the order that matches both tests, and None iff none does |
| Processor.IdentifySource | src/income_tracker/core/payment_processor.py:55-68 | returns S iff S matches sender and subject and no provider earlier in table order does; returns None iff no provider matches |
| Processor.MatchAmount | src/income_tracker/core/payment_processor.py:83 | None iff no `$` is followed by a digit or comma; otherwise the leftmost match, with greedy parts |
| Processor.LeftmostMatchUnique | src/income_tracker/core/payment_processor.py:83 | the text determines the leftmost match completely |
| Processor.ExtractAmount | src/income_tracker/core/payment_processor.py:70-91 | reports not found iff there is no match, and malformed iff the match holds no digit; on success the value is the match with commas removed, parsed as a decimal |
| Processor.StrippedNumeral | src/income_tracker/core/payment_processor.py:87-89 | the comma-stripped group is a valid decimal string iff the captured group holds a digit |
| Processor.RemoveCommas | src/income_tracker/core/payment_processor.py:87 | the result has no comma, keeps digit strings as they are, and is empty iff the input was all commas |
| Processor.RemoveCommasChar | src/income_tracker/core/payment_processor.py:87 | one character: a comma is dropped, any other character is kept |
| Processor.RemoveCommasConcat | src/income_tracker/core/payment_processor.py:87 | removing commas distributes over concatenation, so with the one-character case it fixes the whole result: the input with every comma deleted and the rest in order |
| Processor.ExtractsWrittenAmount | src/income_tracker/core/payment_processor.py:83-91 | an amount written after comma-free, dollar-free text reads as its digits without commas, with scale equal to the number of fraction digits; without a digit it is malformed |
| Processor.ExtractRendered | src/income_tracker/core/payment_processor.py:83-89 | writing any decimal after a `$` and extracting it gives the same decimal back |
| Processor.CommasIgnored | src/income_tracker/core/payment_processor.py:87 | an amount reads the same with its thousands separators removed |
| Processor.ExtractExample | src/income_tracker/core/payment_processor.py:83-89 | "$1,234.56" gives the decimal 123456 at scale 2 |
| Processor.MalformedExample | src/income_tracker/core/payment_processor.py:84-91 | "$,," is malformed with empty text; "$x" is not found |
| Processor.BodyAmountFirst | src/income_tracker/core/payment_processor.py:145-149 | when the body holds an amount, that amount is extracted whatever the subject says |
| Processor.FirstNonBlank | src/income_tracker/core/payment_processor.py:106-107 | None iff every group is absent or blank; otherwise the index of the first group that is not |
| Processor.ExtractClientName | src/income_tracker/core/payment_processor.py:103-109 | "Unknown" with no match or only blank groups; otherwise the first non-blank group, stripped; never empty and never padded |
| Processor.ProcessEmail | src/income_tracker/core/payment_processor.py:126-167 | a record iff a source is identified and the amount extracts; its fields are that source, the subject, the extracted amount, the name from body then subject, the parsed or current date, and the current time |
| Processor.SupportedSenders | src/income_tracker/core/payment_processor.py:169-178 | an ascending permutation of all providers' senders |
| Sorting.Sort | src/income_tracker/core/payment_processor.py:178 | the result is sorted and a permutation of the input |
| Sorting.SortedPermutationUnique | src/income_tracker/core/payment_processor.py:178 | two sorted permutations of one list are equal, so the sender order is fully determined |
| Sorting.LexLeTotal | src/income_tracker/core/payment_processor.py:178 | string order compares any two strings |
| Sorting.LexLeTransitive | src/income_tracker/core/payment_processor.py:178 | string order is transitive |
| Sorting.LexLeAntisymmetric | src/income_tracker/core/payment_processor.py:178 | string order is antisymmetric |
| Decimals.ParseDecimal | src/income_tracker/core/payment_processor.py:88-91 | succeeds iff the text is digits with at most one point and at least one digit; without a point the value is the digits' integer value, and with a point at position k it is the digits with the point removed, scaled by the number of digits after the point |
| Decimals.ParsePointed | src/income_tracker/core/payment_processor.py:88-91 | a numeral whose only point is at k parses to the digits around the point, scaled by the digits after it |
| Decimals.ParseRender | src/income_tracker/core/payment_processor.py:88-89 | parsing the rendering of a decimal gives it back, coefficient and scale |
| Decimals.LeadingZerosIgnored | src/income_tracker/core/payment_processor.py:89 | leading zeros do not change a digit string's value |
| Decimals.NatToString | src/income_tracker/core/payment_processor.py:89 | a natural's decimal digits read back as it |
| Storage.RecordExists | src/income_tracker/storage/excel_handler.py:136-160 | true iff some stored row matches the record on day, amount value, source value and client name; false on an unreadable file |
| Storage.SaveRecord | src/income_tracker/storage/excel_handler.py:84-111 | fails iff the record is new and the file cannot be written; an existing record leaves the file unchanged; otherwise exactly the record's row is appended; afterwards the record exists |
| Storage.SaveIdempotent | src/income_tracker/storage/excel_handler.py:95-107 | saving a record twice is the same as saving it once |
| Storage.SameKeyIsDuplicate | src/income_tracker/storage/excel_handler.py:149-154 | a record with the same key as a saved one, whatever its subject or times, changes nothing |
| Storage.DistinctKeysBothKept | src/income_tracker/storage/excel_handler.py:100-107 | records with different keys are both appended, in saving order |
| Storage.UnreadableFileReplaced | src/income_tracker/storage/excel_handler.py:162-168 | saving to an unreadable file writes a file holding just the new row |
| Storage.GetSummaryStats | src/income_tracker/storage/excel_handler.py:204-224 | an empty store gives only count 0 and total 0; otherwise the count is the number of rows and the total the sum; mean times count is the total; min and max bound every amount and are attained; unique clients counts distinct names; by-source holds each present source with its number of rows |
| Storage.MaxAmount | src/income_tracker/storage/excel_handler.py:220 | bounds every amount and is one of them |
| Storage.MinAmount | src/income_tracker/storage/excel_handler.py:221 | bounded by every amount and is one of them |
| Storage.ClientNames | src/income_tracker/storage/excel_handler.py:222 | exactly the names some row holds |
| Storage.SourceCounts | src/income_tracker/storage/excel_handler.py:223 | keys are exactly the sources present, each with its number of rows |
| Storage.BySourceSumsToTotal | src/income_tracker/storage/excel_handler.py:216-223 | the per-source counts add up to the number of records |
| Storage.SaveUpdatesSummary | src/income_tracker/storage/excel_handler.py:95-107 | a duplicate save leaves the summary unchanged; a new record adds one to the count and its amount to the total |
| Storage.TotalAppend | src/income_tracker/storage/excel_handler.py:218 | appending a row adds its amount to the total |
| Tracker.StepId | src/income_tracker/core/tracker.py:61-93 | one message id: an id already processed is skipped with nothing changed; otherwise the fetch decides: a missing message is logged and a raising fetch aborts, both leaving the state as it was, and a fetched message is marked and added to the processed set; the spreadsheet changes only on a save, and then to what `save_record` wrote |
| Tracker.ProcessIds | src/income_tracker/core/tracker.py:60-93 | one event per id in the given order, stopping right after the first fetch that raises (the rest of that sender's ids are abandoned); an id is skipped exactly when it was processed before or earlier in the pass; the processed set grows by exactly the ids of fetched messages, none of them seen before; the count is the number of returned saves; every event agrees with the mailbox and the processor; an unwritable file is left alone and a failed save is reported only for a record the file lacks, so a duplicate counts as saved; the file gains exactly the rows of the newly saved records, in order, and nothing else; afterwards the ids are quiet, so a rerun would change nothing |
| Tracker.ProcessSenders | src/income_tracker/core/tracker.py:55-98 | the same accounting over all senders, including exact skipping and the exact change to the file; the events come sender by sender in the given order (`SendersShape`): a raising search gives one `SearchFailed` event, and a listing search gives one event per listed id in list order, ending at the first id whose handling raised, which abandons only that sender; the failed searches are reported for exactly the senders whose search raises, in sender order, and the loop continues past them; afterwards every searched sender's ids are quiet |
| Tracker.PassesCompose | src/income_tracker/core/tracker.py:55-98 | two consecutive passes account for their concatenation |
| Tracker.ProcessNewEmails | src/income_tracker/core/tracker.py:46-100 | the cycle over the supported senders in sorted order (`SupportedSenders`, a sorted permutation of the table's senders): the same accounting, including exact skipping and the exact change to the file, the events sender by sender in that order with each sender's segment shaped as above, failed searches for exactly the failing senders in that order, and every sender quiet afterwards |
| Tracker.SkipsExactAt | src/income_tracker/core/tracker.py:63-65 | read event by event: an event skips its id exactly when the id was processed before the pass or marked by an earlier event |
| Tracker.BrokenFetchEndsPass | src/income_tracker/core/tracker.py:56-97 | any pass meeting the inner loop's contract ends at a new id whose handling raises, with that id `Aborted` |
| Tracker.DuplicateSaveCounted | src/income_tracker/core/tracker.py:81-84 | any pass meeting the contract reports a save of an already stored record as `Saved`, so it is counted even when the file cannot be written |
| Tracker.NoSaveKeepsFile | src/income_tracker/core/tracker.py:81-84 | any pass meeting the contract that saves nothing leaves the file as it was |
| Tracker.StepStoreFacts | src/income_tracker/core/tracker.py:63-93 | one step skips only a processed id, leaves an unwritable file alone, fails a save only for a record the file lacks, and adds at most the row of its new record |
| Tracker.StoreChangesCompose | src/income_tracker/core/tracker.py:55-98 | the file changes of consecutive passes compose |
| Tracker.AppendRowsCompose | src/income_tracker/core/tracker.py:81-84 | the rows two consecutive traces append to the file are those their concatenation appends |
| Tracker.FailedSavesCompose | src/income_tracker/core/tracker.py:81-84 | a failed save in either of two consecutive traces is of a record the final file lacks |
| Tracker.SendersShapeCons | src/income_tracker/core/tracker.py:55-98 | one sender's segment (a single failed search, or the inner loop's events over its ids) followed by the shape of the remaining senders is the shape of the whole pass |
| Tracker.EventsListed | src/income_tracker/core/tracker.py:56-62 | every event other than a failed search names an id that some sender's search returned |
| Tracker.SingleSenderShape | src/income_tracker/core/tracker.py:56-97 | a pass over a single sender has the inner loop's shape: one event per listed id, ending at the first that raised |
| Tracker.NothingListedNoEvents | src/income_tracker/core/tracker.py:56-62 | when every search succeeds with an empty list, the pass has no events |
| Tracker.AppendedConcat | src/income_tracker/core/tracker.py:81-84 | the rows appended by two consecutive traces are the first's followed by the second's, taken against the grown file |
| Tracker.IdsShapeCons | src/income_tracker/core/tracker.py:60-93 | an id that does not abort, followed by the events of the remaining ids, gives one event per id in order |
| Tracker.IdsQuietStep | src/income_tracker/core/tracker.py:63-70 | an id that is processed, missing or now marked, followed by quiet ids, leaves the whole list quiet |
| Tracker.QuietGrows | src/income_tracker/core/tracker.py:93 | marking more fetched ids keeps a list quiet |
| Tracker.SendersQuietStep | src/income_tracker/core/tracker.py:55-98 | the first sender's quiet ids stay quiet while later senders mark messages |
| Tracker.QuietIdsUnchanged | src/income_tracker/core/tracker.py:60-93 | the inner loop over quiet ids changes nothing and counts nothing |
| Tracker.QuietSendersUnchanged | src/income_tracker/core/tracker.py:55-98 | the outer loop over quiet senders changes nothing and counts nothing |
| Tracker.RunSingleCheck | src/income_tracker/core/tracker.py:102-126 | records processed is the number of returned saves, and total emails processed is the size of the old set plus the ids marked |
| Tracker.UnfetchedNeverMarked | src/income_tracker/core/tracker.py:68-70 | an id whose fetch fails or raises keeps its processed status, so it is retried next cycle |
| Tracker.CheckCountsEachEmailOnce | src/income_tracker/core/tracker.py:63-93 | total emails processed is the old size plus one per processed message; no message is marked twice or re-marked |
| Tracker.FreshMarksDistinct | src/income_tracker/core/tracker.py:63-65 | every marked id is new and distinct from every other marked id |
| Tracker.FreshMarksCounted | src/income_tracker/core/tracker.py:93 | the processed set grows by exactly the number of marking events |
| Tracker.SecondCycleChangesNothing | src/income_tracker/core/tracker.py:63-93 | run again on the same mailbox, a second cycle counts nothing and leaves the processed set and the spreadsheet unchanged |
| Tracker.WritableSendersIgnoreStore | src/income_tracker/core/tracker.py:81-93 | when the spreadsheet can be written, the events, the processed set and the count do not depend on its rows |
| Tracker.ReplayKeepsSendersStore | src/income_tracker/core/tracker.py:81-84 | a cycle whose saved records are all present already leaves the spreadsheet unchanged |
| Tracker.RestartRecountsWithoutDuplicating | src/income_tracker/core/tracker.py:81-84 | after a restart, rerunning the cycle with the same mailbox and clock reading adds no row but reports the same records processed again |
| Tracker.DateFallbackBreaksDedup | src/income_tracker/core/payment_processor.py:120-124 | a message without a usable date processed on two different days gets two different keys |
| Legacy.LegacyTableAgrees | src/income_tracker/payment_tracker.py:23-48 | the legacy table has the current table's senders, keywords and expressions |
| Legacy.Classify | src/income_tracker/payment_tracker.py:122-127 | over any provider order, the legacy loop with its own literal table picks the same provider as the current loop `Processor.FirstMatch`: the first whose sender and keyword tests pass, None iff none does |
| Legacy.ClassifyAgrees | src/income_tracker/payment_tracker.py:122-127 | legacy classification picks the same provider as the current one |
| Legacy.LegacyAmount | src/income_tracker/payment_tracker.py:76-77 | the leftmost match's text, commas kept, or "Unknown" exactly when nothing matches; never an error |
| Legacy.LegacyAmountAgrees | src/income_tracker/payment_tracker.py:76-77 | "Unknown" exactly where the current extractor finds nothing; where it succeeds, the legacy text without commas parses to the same decimal |
| Legacy.StrippedIsCommaFree | src/income_tracker/core/payment_processor.py:83-87 | removing the commas from a match's captured text gives exactly the stripped numeral the current extractor parses |
| Legacy.LegacyAmountExample | src/income_tracker/payment_tracker.py:76-77 | "$1,234.56" is kept as the text "1,234.56" |
| Legacy.LegacyMalformedExample | src/income_tracker/payment_tracker.py:76-77 | "$,," is kept as ",," where the current extractor reports malformed |
| Legacy.LegacyName | src/income_tracker/payment_tracker.py:80-84 | the first present, non-empty group, unstripped, or "Unknown"; never empty |
| Legacy.LegacyNameTrimsToCurrent | src/income_tracker/payment_tracker.py:80-84 | without non-empty blank groups, the current name is the legacy name stripped |
| Legacy.BlankGroupExample | src/income_tracker/payment_tracker.py:80-84 | a blank first group is the legacy name, while the current rule takes the next group |
| Legacy.LegacyNameIsCurrent | src/income_tracker/payment_tracker.py:27-45 | when every group is absent or starts and ends with a non-space character, as the configured name expressions capture, the legacy and current names are the same |
| Legacy.AddToExcel | src/income_tracker/payment_tracker.py:144-168 | appends exactly the row when the file can be read and written; otherwise the file is unchanged |
| Legacy.AddTwiceDuplicates | src/income_tracker/payment_tracker.py:148-164 | adding a row twice stores it twice |
| Legacy.LegacyProcessEmail | src/income_tracker/payment_tracker.py:88-142 | True iff the message was fetched, its subject and body decode and a provider matches; only then is a row added, for the identified provider |
| Legacy.LegacyRecordsMore | src/income_tracker/payment_tracker.py:129-136 | every message the current tracker turns into a record is recorded by the legacy one; the only extra ones are those without an amount |
| Legacy.CheckForNewEmails | src/income_tracker/payment_tracker.py:170-196 | nothing changes when the connection fails; otherwise, with the senders in dictionary order, every listed recorded uid is processed afterwards and the sheet gains exactly the rows `SendersRows` lists when it can be read and written, and is unchanged otherwise |
| Legacy.RowFor | src/income_tracker/payment_tracker.py:151-158 | the row `add_to_excel` builds: the message's day (or today), the legacy amount text, the provider's value, the legacy name, the subject and the processing stamp |
| Legacy.ProcessUids | src/income_tracker/payment_tracker.py:189-193 | every listed uid whose message is recorded is processed afterwards; the sheet gains the rows of the recorded uids that were not yet processed, in listing order, each processed for the rest of the list, when it can be read and written, and is unchanged otherwise |
| Legacy.ProcessLegacySenders | src/income_tracker/payment_tracker.py:180-196 | over the senders in order, a raising search is skipped; the processed set gains every recorded uid some search listed, and the sheet gains each searched sender's recorded rows in sender order |
| Legacy.UidStep | src/income_tracker/payment_tracker.py:191-193 | a new uid is recorded exactly when its message is, and then its row is added |
| Legacy.RecordedRowsHead | src/income_tracker/payment_tracker.py:189-193 | the rows of a list whose first uid is new are that uid's row, if recorded, then the rest's rows with it processed |
| Legacy.AddRowsConcat | src/income_tracker/payment_tracker.py:144-167 | adding two lists of rows in turn adds their concatenation |
| Legacy.LegacySendersUnsorted | src/income_tracker/payment_tracker.py:180-184 | the legacy senders are the current ones in dictionary order, not sorted |
| Legacy.LegacyMarksOnlyRecorded | src/income_tracker/payment_tracker.py:184-196 | a uid is processed afterwards iff it was before or it was listed and its message recorded; non-payment mail stays unprocessed |
| Legacy.LegacyRestartDuplicates | src/income_tracker/payment_tracker.py:189-193 | after a restart a payment message is appended again, so the sheet holds it twice |

## Left out

- payment_tracker.py:243 starts with `+-#`, which Python rejects as a syntax error, so that module cannot be imported as shipped; the model reads the line as the comment it was evidently meant to be.
- IMAP connection, search, fetch and MIME and header decoding are not modelled. The mailbox is a parameter. A search gives the ids or fails. A fetch gives a message, nothing, or an exception that abandons the sender's remaining ids.
- Date parsing (`parsedate_to_datetime`) and `strftime` are not modelled. A parsed date is an optional value, and the `%Y-%m-%d` text is the day itself.
- `datetime.now()` is one parameter per cycle. The source reads the clock separately for the payment-date fallback and for `processed_at`.
- Text.Lower: lower-cases ASCII letters only; Python's `str.lower` also folds other scripts. Every configured sender and keyword is lower-case ASCII, so a match can only involve characters that lower to ASCII. Two non-ASCII characters do: the Kelvin sign U+212A lowers to "k", and U+0130 lowers to "i" followed by the combining dot U+0307. The answers still agree because no configured sender or keyword contains "k", and none ends in "i": an "i" followed by U+0307 can only end an occurrence. Any other non-ASCII character stays non-ASCII under both rules and matches nothing.
- Decimals.ParseDecimal: accepts only digits with at most one point, which is everything the captured group can become once commas are removed. `Decimal` also accepts signs, exponents, `NaN` and surrounding whitespace, none of which the amount expression can capture.
- The name expression is a parameter (`NameSearch`) rather than a regular-expression engine. The configured expressions (payment_tracker.py:27-45, payment_processor.py:33-51) capture groups that start and end with a letter, and only one alternative takes part, so `Legacy.LegacyNameIsCurrent` applies and the two name rules agree on them; the difference `Legacy.BlankGroupExample` shows needs some other name expression, which the parameter admits.
- Storage.RecordExists: compares amounts by exact value; the source compares the stored cell with `float(amount)`. Float rounding is not modelled.
- Storage.GetSummaryStats: all amounts are exact, not floats: the total, maximum, minimum and mean (excel_handler.py:218-221) are exact values, the mean the exact quotient. The error entry for an exception (excel_handler.py:226-228) is not modelled, because nothing in the model raises there.
- A spreadsheet that cannot be written is a flag of the cycle (`writable`). A failed write leaves the file unchanged.
- Excel creation, styling and column widths (`_ensure_file_exists`, `_save_dataframe`) are not modelled.
- `load_records` is a stub that returns an empty list and is not modelled.
- Tracker.RunSingleCheck: `duration_seconds` is not modelled. The error branch (tracker.py:128-134) is unreachable in the model, because every exception is caught per sender inside the cycle.
- The continuous-monitoring loops, `time.sleep` back-off and `KeyboardInterrupt` handling are not modelled; one cycle is the step.
- `get_statistics`, `validate_configuration`, the CLI and configuration are not modelled.
- `from_emails` and `subject_keywords` are frozensets. The model uses the listed order, which `any` does not depend on. `get_supported_senders` sorts the concatenation, so its result does not depend on that order either.
- `record_exists` swallowing its own exceptions is modelled only for an unreadable file.

=== FILE: decimals.dfy ===
/** Exact decimal amounts, as Python's `decimal.Decimal` holds them: an integer
    coefficient and a count of fractional digits. Amounts are compared by value,
    never through binary floating point. */
module Decimals {
  import opened Wrappers

  /** The number `digits / 10^scale`. `Decimal("75.00")` is `Decimal(7500, 2)`. */
  datatype Decimal = Decimal(digits: nat, scale: nat)

  function Pow10(n: nat): (r: nat)
    ensures r >= 1
  {
    if n == 0 then 1 else 10 * Pow10(n - 1)
  }

  /** The exact rational value of a decimal; `Decimal("5.0") == Decimal("5")` in
      Python because their values agree. */
  function Value(d: Decimal): real {
    d.digits as real / Pow10(d.scale) as real
  }

  predicate IsDigit(c: char) {
    '0' <= c <= '9'
  }

  predicate AllDigits(s: string) {
    forall i :: 0 <= i < |s| ==> IsDigit(s[i])
  }

  function DigitValue(c: char): (v: nat)
    requires IsDigit(c)
    ensures v < 10
  {
    c as int - '0' as int
  }

  /** The number a string of decimal digits denotes (0 for the empty string). */
  function DigitsValue(s: string): nat
    requires AllDigits(s)
  {
    if s == [] then 0 else 10 * DigitsValue(s[..|s| - 1]) + DigitValue(s[|s| - 1])
  }

  /** Appending a digit multiplies the value by ten and adds the digit. */
  lemma DigitsSnoc(s: string, c: char)
    requires AllDigits(s) && IsDigit(c)
    ensures AllDigits(s + [c]) && DigitsValue(s + [c]) == 10 * DigitsValue(s) + DigitValue(c)
  {
    assert (s + [c])[..|s|] == s;
  }

  /** The digit character for `v < 10`. */
  function DigitChar(v: nat): (c: char)
    requires v < 10
    ensures IsDigit(c) && DigitValue(c) == v
  {
    ('0' as int + v) as char
  }

  /** `str(n)` for a natural number: its decimal digits with no leading zero. */
  function NatToString(n: nat): (s: string)
    ensures AllDigits(s) && |s| >= 1
    ensures DigitsValue(s) == n
    decreases n
  {
    if n < 10 then
      [DigitChar(n)]
    else
      var s := NatToString(n / 10) + [DigitChar(n % 10)];
      assert s[..|s| - 1] == NatToString(n / 10);
      s
  }

  /** `k` zeros. */
  function Zeros(k: nat): (s: string)
    ensures |s| == k && AllDigits(s)
  {
    seq(k, i => '0')
  }

  /** Leading zeros do not change the number a digit string denotes. */
  lemma {:induction false} LeadingZerosIgnored(z: string, s: string)
    requires AllDigits(z) && AllDigits(s)
    requires forall i :: 0 <= i < |z| ==> z[i] == '0'
    ensures AllDigits(z + s) && DigitsValue(z + s) == DigitsValue(s)
    decreases |s|
  {
    assert AllDigits(z + s) by {
      forall i | 0 <= i < |z + s| ensures IsDigit((z + s)[i]) {
        if i < |z| { assert (z + s)[i] == z[i]; } else { assert (z + s)[i] == s[i - |z|]; }
      }
    }
    if s == [] {
      assert z + s == z;
      AllZerosValue(z);
    } else {
      var t := s[..|s| - 1];
      assert (z + s)[..|z + s| - 1] == z + t;
      LeadingZerosIgnored(z, t);
    }
  }

  lemma {:induction false} AllZerosValue(z: string)
    requires AllDigits(z)
    requires forall i :: 0 <= i < |z| ==> z[i] == '0'
    ensures DigitsValue(z) == 0
    decreases |z|
  {
    if z != [] {
      AllZerosValue(z[..|z| - 1]);
    }
  }

  /** The index of the first `c` in `s`, if any. */
  function IndexOf(s: string, c: char): (r: Option<nat>)
    ensures r.None? <==> c !in s
    ensures r.Some? ==> r.value < |s| && s[r.value] == c && c !in s[..r.value]
  {
    if s == [] then None
    else if s[0] == c then Some(0)
    else
      match IndexOf(s[1..], c)
      case None => None
      case Some(k) =>
        assert s[..k + 1] == [s[0]] + s[1..][..k];
        Some(k + 1)
  }

  /** A well-formed numeral over digits and at most one decimal point, with at
      least one digit: the strings `Decimal(...)` accepts among those made only
      of digits and dots. */
  ghost predicate IsNumeral(s: string) {
    && (forall i :: 0 <= i < |s| ==> IsDigit(s[i]) || s[i] == '.')
    && (forall i, j :: 0 <= i < j < |s| && s[i] == '.' ==> s[j] != '.')
    && (exists i :: 0 <= i < |s| && IsDigit(s[i]))
  }

  /** With its first point at `k`, a string is a numeral iff the parts before
      and after that point are digit strings, not both empty. */
  lemma NumeralSplit(s: string, k: nat)
    requires k < |s| && s[k] == '.' && '.' !in s[..k]
    ensures IsNumeral(s) <==> AllDigits(s[..k]) && AllDigits(s[k + 1..]) && |s| > 1
  {
    var whole, frac := s[..k], s[k + 1..];
    if IsNumeral(s) {
      forall i | 0 <= i < |whole| ensures IsDigit(whole[i]) {
        assert whole[i] == s[i] && s[i] in s[..k];
      }
      forall i | 0 <= i < |frac| ensures IsDigit(frac[i]) {
        assert frac[i] == s[k + 1 + i];
      }
      var i :| 0 <= i < |s| && IsDigit(s[i]);
      assert i != k;
    }
    if AllDigits(whole) && AllDigits(frac) && |s| > 1 {
      forall i | 0 <= i < |s| && i != k ensures IsDigit(s[i]) {
        if i < k { assert s[i] == whole[i]; } else { assert s[i] == frac[i - k - 1]; }
      }
      if k > 0 { assert IsDigit(s[0]); } else { assert IsDigit(s[1]) by { assert s[1] == frac[0]; } }
    }
  }

  /** `Decimal(s)` for a string of digits and dots: the digits on both sides of
      the point form the coefficient and those after it the scale, so "5." is 5
      and ".5" is 0.5, while "", "." and "1.2.3" raise `InvalidOperation`
      (modelled as `None`). */
  function ParseDecimal(s: string): (r: Option<Decimal>)
    ensures r.Some? <==> IsNumeral(s)
    ensures IsNumeral(s) && '.' !in s ==> AllDigits(s) && r == Some(Decimal(DigitsValue(s), 0))
    ensures forall k :: 0 <= k < |s| && s[k] == '.' && IsNumeral(s) ==>
              AllDigits(s[..k] + s[k + 1..]) && r == Some(Decimal(DigitsValue(s[..k] + s[k + 1..]), |s| - k - 1))
  {
    match IndexOf(s, '.')
    case None =>
      assert IsNumeral(s) ==> AllDigits(s) by {
        if IsNumeral(s) {
          forall i | 0 <= i < |s| ensures IsDigit(s[i]) { assert s[i] != '.' by { assert s[i] in s; } }
        }
      }
      if s != [] && AllDigits(s) then
        assert IsDigit(s[0]);
        Some(Decimal(DigitsValue(s), 0))
      else
        None
    case Some(k) =>
      var whole := s[..k];
      var frac := s[k + 1..];
      NumeralSplit(s, k);
      assert forall j :: 0 <= j < k ==> s[j] != '.' by {
        forall j | 0 <= j < k ensures s[j] != '.' { assert s[..k][j] == s[j]; }
      }
      assert whole + frac == s[..k] + s[k + 1..];
      if AllDigits(whole) && AllDigits(frac) && |whole| + |frac| > 0 then
        assert AllDigits(whole + frac) by {
          forall i | 0 <= i < |whole + frac| ensures IsDigit((whole + frac)[i]) {
            if i < |whole| { assert (whole + frac)[i] == whole[i]; }
            else { assert (whole + frac)[i] == frac[i - |whole|]; }
          }
        }
        Some(Decimal(DigitsValue(whole + frac), |frac|))
      else
        None
  }

  /** Decimal text for a value with exactly its scale in fractional digits and
      at least one digit before the point: `Render(Decimal(5, 2)) == "0.05"`,
      `Render(Decimal(123456, 2)) == "1234.56"`. */
  function Render(d: Decimal): (s: string)
    ensures |s| >= 1 && IsDigit(s[0]) && IsDigit(s[|s| - 1])
    ensures forall i :: 0 <= i < |s| ==> IsDigit(s[i]) || s[i] == '.'
  {
    var p := PaddedDigits(d);
    if d.scale == 0 then p
    else
      var cut := |p| - d.scale;
      var s := p[..cut] + "." + p[cut..];
      assert forall i :: 0 <= i < |s| ==> IsDigit(s[i]) || s[i] == '.' by {
        forall i | 0 <= i < |s| ensures IsDigit(s[i]) || s[i] == '.' {
          if i < cut { assert s[i] == p[i]; }
          else if i > cut { assert s[i] == p[i - 1]; }
        }
      }
      s
  }

  /** The padded coefficient digits `Render` splits around the point. */
  function PaddedDigits(d: Decimal): (p: string)
    ensures AllDigits(p) && |p| >= d.scale + 1
    ensures DigitsValue(p) == d.digits
  {
    var n := NatToString(d.digits);
    if |n| <= d.scale then
      var z := Zeros(d.scale + 1 - |n|);
      LeadingZerosIgnored(z, n);
      assert forall i :: 0 <= i < |z + n| ==> IsDigit((z + n)[i]);
      z + n
    else
      n
  }

  /** A string with a single point at `k` and digits on both sides parses to
      the digits around the point, scaled by the digits after it. */
  lemma ParsePointed(s: string, k: nat)
    requires k < |s| && s[k] == '.' && '.' !in s[..k]
    requires AllDigits(s[..k]) && AllDigits(s[k + 1..]) && |s| > 1
    ensures AllDigits(s[..k] + s[k + 1..])
    ensures ParseDecimal(s) == Some(Decimal(DigitsValue(s[..k] + s[k + 1..]), |s| - k - 1))
  {
    assert IndexOf(s, '.') == Some(k);
  }

  /** Reading back rendered text gives the same decimal, coefficient and scale. */
  lemma ParseRender(d: Decimal)
    ensures ParseDecimal(Render(d)) == Some(d)
  {
    if d.scale == 0 {
      ParseRenderWhole(d);
    } else {
      ParseRenderPointed(d);
    }
  }

  lemma ParseRenderWhole(d: Decimal)
    requires d.scale == 0
    ensures ParseDecimal(Render(d)) == Some(d)
  {
    var p := PaddedDigits(d);
    assert Render(d) == p;
    forall i | 0 <= i < |p| ensures p[i] != '.' {
      assert IsDigit(p[i]);
    }
    assert IndexOf(p, '.') == None;
  }

  /** The pointed rendering is the padded digits with a point at `cut`. */
  lemma RenderPointedShape(d: Decimal, cut: nat)
    requires d.scale > 0 && cut == |PaddedDigits(d)| - d.scale
    ensures var s := Render(d);
            && cut < |s| && s[cut] == '.' && '.' !in s[..cut]
            && AllDigits(s[..cut]) && AllDigits(s[cut + 1..]) && |s| > 1
            && s[..cut] + s[cut + 1..] == PaddedDigits(d)
  {
    var p := PaddedDigits(d);
    var s := p[..cut] + "." + p[cut..];
    assert Render(d) == s;
    assert s[cut] == '.';
    assert s[..cut] == p[..cut];
    assert s[cut + 1..] == p[cut..];
    forall i | 0 <= i < cut ensures s[..cut][i] != '.' {
      assert IsDigit(p[i]);
    }
    assert p[..cut] + p[cut..] == p;
  }

  lemma ParseRenderPointed(d: Decimal)
    requires d.scale > 0
    ensures ParseDecimal(Render(d)) == Some(d)
  {
    var cut := |PaddedDigits(d)| - d.scale;
    RenderPointedShape(d, cut);
    ParsePointed(Render(d), cut);
  }
}

=== FILE: legacy.dfy ===
/** `payment_tracker.py`: the earlier single-file tracker. It has the same
    provider table and the same amount expression, but different policies:
    - the amount stays the captured text, commas and all;
    - client names are not trimmed;
    - rows are appended without a duplicate check;
    - a message is remembered only once it produced a row. */
module Legacy {
  import opened Wrappers
  import opened Text
  import opened Decimals
  import opened Sorting
  import opened Payment
  import opened Processor

  // ---------------------------------------------------------------------------
  // The `payment_patterns` dictionary and classification
  // ---------------------------------------------------------------------------

  /** The `payment_patterns` entry of a provider (the lists as written). */
  function LegacyPattern(s: PaymentSource): PaymentPattern {
    match s
    case Zelle =>
      PaymentPattern(["noreply@zellepay.com", "alert@zellepay.com"], ["sent you", "received", "payment"],
                     @"\$([0-9,]+\.?[0-9]*)",
                     @"([A-Za-z]+\s+[A-Za-z]+(?:\s+[A-Za-z]+)?)\s+sent\s+you|from\s+([A-Za-z]+\s+[A-Za-z]+(?:\s+[A-Za-z]+)?)")
    case Venmo =>
      PaymentPattern(["venmo@venmo.com", "notifications@venmo.com"], ["paid you", "charged you", "payment"],
                     @"\$([0-9,]+\.?[0-9]*)",
                     @"([A-Za-z]+\s+[A-Za-z]+(?:\s+[A-Za-z]+)?)\s+paid\s+you|from\s+([A-Za-z]+\s+[A-Za-z]+(?:\s+[A-Za-z]+)?)")
    case CashApp =>
      PaymentPattern(["cash@square.com", "support@cash.app"], ["sent you", "received", "payment"],
                     @"\$([0-9,]+\.?[0-9]*)",
                     @"([A-Za-z]+\s+[A-Za-z]+(?:\s+[A-Za-z]+)?)\s+sent\s+you|from\s+([A-Za-z]+\s+[A-Za-z]+(?:\s+[A-Za-z]+)?)")
    case PayPal =>
      PaymentPattern(["service@paypal.com", "paypal@e.paypal.com"], ["sent you", "received", "payment"],
                     @"\$([0-9,]+\.?[0-9]*)",
                     @"([A-Za-z]+\s+[A-Za-z]+(?:\s+[A-Za-z]+)?)\s+sent\s+you|from\s+([A-Za-z]+\s+[A-Za-z]+(?:\s+[A-Za-z]+)?)")
  }

  /** Both trackers carry the same table: the same senders and keywords in the
      same order and the same two expressions for every provider. */
  lemma LegacyTableAgrees()
    ensures forall s :: LegacyPattern(s) == PatternFor(s)
  {
    forall s ensures LegacyPattern(s) == PatternFor(s) {
      match s
      case Zelle =>
      case Venmo =>
      case CashApp =>
      case PayPal =>
    }
  }

  /** The classification loop of `process_email`: the first provider of
      `order` whose sender test and keyword test both pass. */
  function Classify(order: seq<PaymentSource>, fromEmail: string, subject: string): (r: Option<PaymentSource>)
    ensures r == FirstMatch(order, fromEmail, subject)
  {
    if order == [] then
      None
    else if MatchesSender(LegacyPattern(order[0]), fromEmail) && MatchesSubject(LegacyPattern(order[0]), subject) then
      LegacyTableAgrees();
      Some(order[0])
    else
      LegacyTableAgrees();
      Classify(order[1..], fromEmail, subject)
  }

  /** Dictionary order is the table order, so the legacy loop picks the same
      provider as `identify_payment_source`. */
  lemma ClassifyAgrees(fromEmail: string, subject: string)
    ensures Classify(TableOrder, fromEmail, subject) == IdentifySource(fromEmail, subject)
  {
  }

  // ---------------------------------------------------------------------------
  // `extract_payment_info`
  // ---------------------------------------------------------------------------

  /** The legacy amount is the text of the leftmost match, commas kept, or
      "Unknown" when nothing matches. This path never fails. */
  function LegacyAmount(text: string): (r: string)
    ensures r == "Unknown" <==> forall i :: 0 <= i < |text| ==> !AmountStartsAt(text, i)
    ensures r != "Unknown" ==> exists m :: IsLeftmostMatch(text, m) && r == GroupText(m)
  {
    match MatchAmount(text)
    case None => "Unknown"
    case Some(m) =>
      assert GroupText(m)[0] == m.whole[0];
      GroupText(m)
  }

  /** Removing the commas from a match's text gives the text the current
      extractor parses. */
  lemma StrippedIsCommaFree(m: AmountMatch)
    requires m.frac.Some? ==> AllDigits(m.frac.value)
    ensures RemoveCommas(GroupText(m)) == StrippedGroup(m)
  {
    if m.frac.Some? {
      RemoveCommasConcat(m.whole, "." + m.frac.value);
      RemoveCommasConcat(".", m.frac.value);
      assert RemoveCommas(".") == ".";
    } else {
      assert GroupText(m) == m.whole;
    }
  }

  /** The current extractor reads the legacy amount with its commas removed:
      wherever `extract_amount` succeeds, the legacy string with every comma
      dropped parses to the same decimal. Where it finds nothing, the legacy
      string is "Unknown". */
  lemma LegacyAmountAgrees(text: string)
    ensures ExtractAmount(text) == Failure(AmountNotFound) <==> LegacyAmount(text) == "Unknown"
    ensures ExtractAmount(text).Success? ==>
              ParseDecimal(RemoveCommas(LegacyAmount(text))) == Some(ExtractAmount(text).value)
  {
    if ExtractAmount(text).Success? {
      var m :| IsLeftmostMatch(text, m) && LegacyAmount(text) == GroupText(m);
      var m' :| IsLeftmostMatch(text, m') && ParseDecimal(StrippedGroup(m')) == Some(ExtractAmount(text).value);
      LeftmostMatchUnique(text, m, m');
      StrippedIsCommaFree(m);
    }
  }

  /** "$1,234.56" is kept as "1,234.56" by the legacy tracker, where the
      current one reads 1234.56 (`Processor.ExtractExample`). */
  lemma LegacyAmountExample(whole: string, frac: string)
    requires whole == "1,234" && frac == "56"
    ensures LegacyAmount("$" + whole + "." + frac) == whole + "." + frac
  {
    var m := AmountMatch(0, whole, Some(frac));
    PointGroup(0, whole, frac);
    assert Written([], GroupText(m), []) == "$" + whole + "." + frac;
    assert AllAmountChars(whole) by {
      assert forall i :: 0 <= i < |whole| ==> whole[i] in "1,234";
    }
    MatchesWrittenAmount([], whole, Some(frac), []);
  }

  /** "$,," is kept as ",," by the legacy tracker, where the current extractor
      reports a malformed amount. */
  lemma LegacyMalformedExample(g: string)
    requires g == ",,"
    ensures LegacyAmount("$" + g) == g
    ensures ExtractAmount("$" + g) == Failure(AmountMalformed(""))
  {
    var m := AmountMatch(0, g, None);
    assert Written([], GroupText(m), []) == "$" + g;
    MatchesWrittenAmount([], g, None, []);
    OnlyCommasMalformed("$" + g);
  }

  /** A group that `if group` accepts: present and non-empty. */
  predicate IsTruthyGroup(g: Option<string>) {
    g.Some? && g.value != []
  }

  /** `i` is the first truthy group. */
  ghost predicate IsFirstTruthy(gs: seq<Option<string>>, i: int) {
    0 <= i < |gs| && IsTruthyGroup(gs[i]) && forall j :: 0 <= j < i ==> !IsTruthyGroup(gs[j])
  }

  function FirstTruthy(gs: seq<Option<string>>): (r: Option<nat>)
    ensures r.None? <==> forall i :: 0 <= i < |gs| ==> !IsTruthyGroup(gs[i])
    ensures r.Some? ==> IsFirstTruthy(gs, r.value)
  {
    if gs == [] then
      None
    else if IsTruthyGroup(gs[0]) then
      Some(0)
    else
      match FirstTruthy(gs[1..])
      case None => None
      case Some(k) => Some(k + 1)
  }

  /** The legacy client name: the first truthy group exactly as captured, or
      "Unknown". It is never empty. */
  function LegacyName(m: NameGroups): (r: string)
    ensures m.None? ==> r == "Unknown"
    ensures m.Some? && (forall i :: 0 <= i < |m.value| ==> !IsTruthyGroup(m.value[i])) ==> r == "Unknown"
    ensures m.Some? ==> forall i :: IsFirstTruthy(m.value, i) ==> r == m.value[i].value
    ensures r != []
  {
    match m
    case None => "Unknown"
    case Some(gs) =>
      match FirstTruthy(gs)
      case None => "Unknown"
      case Some(k) =>
        assert forall i :: IsFirstTruthy(gs, i) ==> i == k;
        gs[k].value
  }

  /** The two name rules differ only on groups that are non-empty but blank.
      Without such a group, the current name is the legacy name trimmed. */
  lemma LegacyNameTrimsToCurrent(m: NameGroups)
    requires m.Some? ==> forall i :: 0 <= i < |m.value| && IsTruthyGroup(m.value[i]) ==> !IsBlank(m.value[i].value)
    ensures Trim(LegacyName(m)) == ExtractClientName(m)
  {
    assert Trim("Unknown") == "Unknown" by {
      assert !IsSpace("Unknown"[0]) && !IsSpace("Unknown"[6]);
      assert SkipSpaces("Unknown", 0) == 0;
      assert SkipSpacesBack("Unknown", 0, 7) == 7;
    }
    if m.Some? {
      var gs := m.value;
      assert forall i :: 0 <= i < |gs| ==> (IsBlankGroup(gs[i]) <==> !IsTruthyGroup(gs[i]));
      if k :| IsFirstTruthy(gs, k) {
        assert IsFirstNonBlank(gs, k);
      }
    }
  }

  /** A group as the configured name expressions capture it: absent (the
      alternative did not take part), or starting and ending with a letter. */
  predicate IsBoundedGroup(g: Option<string>) {
    g.None? || (g.value != [] && !IsSpace(g.value[0]) && !IsSpace(g.value[|g.value| - 1]))
  }

  /** A string already bounded by non-space characters is its own strip. */
  lemma TrimBounded(n: string)
    requires n != [] && !IsSpace(n[0]) && !IsSpace(n[|n| - 1])
    ensures Trim(n) == n
  {
    assert SkipSpaces(n, 0) == 0;
    assert SkipSpacesBack(n, 0, |n|) == |n|;
    assert n[0..|n|] == n;
  }

  /** The legacy name drawn from such groups is bounded by non-space characters. */
  lemma LegacyNameBounded(m: NameGroups)
    requires m.Some? ==> forall i :: 0 <= i < |m.value| ==> IsBoundedGroup(m.value[i])
    ensures !IsSpace(LegacyName(m)[0]) && !IsSpace(LegacyName(m)[|LegacyName(m)| - 1])
  {
    if m.Some? && FirstTruthy(m.value).Some? {
      assert IsBoundedGroup(m.value[FirstTruthy(m.value).value]);
    } else {
      assert LegacyName(m) == "Unknown";
    }
  }

  /** On such groups the two name rules give the same client name. */
  lemma LegacyNameIsCurrent(m: NameGroups)
    requires m.Some? ==> forall i :: 0 <= i < |m.value| ==> IsBoundedGroup(m.value[i])
    ensures LegacyName(m) == ExtractClientName(m)
  {
    if m.Some? {
      forall i | 0 <= i < |m.value| && IsTruthyGroup(m.value[i])
        ensures !IsBlank(m.value[i].value)
      {
        assert IsBoundedGroup(m.value[i]);
      }
    }
    LegacyNameTrimsToCurrent(m);
    LegacyNameBounded(m);
    TrimBounded(LegacyName(m));
  }

  /** A blank but non-empty first group is where the rules part: the legacy
      tracker stores it as the client name, while the current one skips it. */
  lemma BlankGroupExample(blank: string, name: string)
    requires blank == " " && name == "Ann Lee"
    ensures LegacyName(Some([Some(blank), Some(name)])) == " "
    ensures ExtractClientName(Some([Some(blank), Some(name)])) == "Ann Lee"
  {
    var gs := [Some(blank), Some(name)];
    assert IsFirstTruthy(gs, 0);
    assert IsFirstNonBlank(gs, 1) by {
      assert !IsSpace(name[0]);
    }
    assert Trim(name) == name by {
      assert SkipSpaces(name, 0) == 0;
      assert SkipSpacesBack(name, 0, 7) == 7;
    }
  }

  // ---------------------------------------------------------------------------
  // The spreadsheet (`add_to_excel`)
  // ---------------------------------------------------------------------------

  /** A legacy row. The amount is the captured text, not a number. */
  datatype LegacyRow = LegacyRow(
    date: Day,
    amount: string,
    source: string,
    clientName: string,
    emailSubject: string,
    processedDate: Stamp)

  /** The spreadsheet: its rows, or a file `read_excel` cannot read. */
  datatype LegacyFile = Sheet(rows: seq<LegacyRow>) | Unreadable

  /** `add_to_excel`: the row is appended with no duplicate check when the
      file can be read and written; a read or write failure is swallowed and
      leaves the file as it was. */
  function AddToExcel(f: LegacyFile, row: LegacyRow, writable: bool): (r: LegacyFile)
    ensures f.Unreadable? || !writable ==> r == f
    ensures f.Sheet? && writable ==> r.Sheet? && |r.rows| == |f.rows| + 1
                                     && r.rows[..|f.rows|] == f.rows && r.rows[|f.rows|] == row
  {
    if f.Sheet? && writable then Sheet(f.rows + [row]) else f
  }

  /** Unlike `save_record`, adding the same row twice stores it twice. */
  lemma AddTwiceDuplicates(rows: seq<LegacyRow>, row: LegacyRow)
    ensures var r := AddToExcel(AddToExcel(Sheet(rows), row, true), row, true);
            r.Sheet? && multiset(r.rows)[row] == multiset(rows)[row] + 2
  {
    var r := AddToExcel(AddToExcel(Sheet(rows), row, true), row, true);
    assert r.rows == rows + [row] + [row];
  }

  // ---------------------------------------------------------------------------
  // `process_email`
  // ---------------------------------------------------------------------------

  /** One fetched and parsed message. A `None` field stands for a step that
      raises: a missing Subject header (`decode_header(None)`), or a body whose
      payload cannot be decoded. */
  datatype LegacyMessage = LegacyMessage(fromHeader: string, subject: Option<string>, body: Option<string>, date: Option<Day>)

  /** Everything the legacy cycle depends on besides its state. `fetch` is
      `None` when fetching or parsing raises; `search` is `None` when the
      search raises. */
  datatype LegacyEnv = LegacyEnv(
    connected: bool,
    search: string -> Option<seq<string>>,
    fetch: string -> Option<LegacyMessage>,
    names: NameSearch,
    writable: bool,
    now: DateTime)

  /** The message is one `process_email` answers `True` for: it was fetched,
      its subject and body decode, and some provider matches it. */
  predicate IsRecorded(msg: Option<LegacyMessage>) {
    && msg.Some? && msg.value.subject.Some? && msg.value.body.Some?
    && Classify(TableOrder, msg.value.fromHeader, msg.value.subject.value).Some?
  }

  /** The row `process_email` writes for a recorded message. */
  function RowFor(msg: LegacyMessage, s: PaymentSource, env: LegacyEnv): (r: LegacyRow)
    requires msg.subject.Some? && msg.body.Some?
    ensures r.date == (if msg.date.Some? then msg.date.value else env.now.date)
    ensures var text := msg.body.value + " " + msg.subject.value;
            r.amount == "Unknown" <==> forall i :: 0 <= i < |text| ==> !AmountStartsAt(text, i)
    ensures r.source == SourceValue(s) && r.emailSubject == msg.subject.value
    ensures r.clientName != [] && r.processedDate == ToStamp(env.now)
  {
    var subject := msg.subject.value;
    var text := msg.body.value + " " + subject;
    LegacyRow(msg.date.GetOr(env.now.date), LegacyAmount(text), SourceValue(s),
              LegacyName(env.names(LegacyPattern(s).namePattern, text)), subject, ToStamp(env.now))
  }

  /** `process_email`: whether it answers `True`, and the file afterwards. */
  datatype Processed = Processed(recorded: bool, file: LegacyFile)

  function LegacyProcessEmail(env: LegacyEnv, msg: Option<LegacyMessage>, f: LegacyFile): (r: Processed)
    ensures r.recorded <==> IsRecorded(msg)
    ensures !r.recorded ==> r.file == f
    ensures r.recorded ==>
              var s := IdentifySource(msg.value.fromHeader, msg.value.subject.value).value;
              r.file == AddToExcel(f, RowFor(msg.value, s, env), env.writable)
  {
    match msg
    case None => Processed(false, f)
    case Some(m) =>
      if m.subject.None? || m.body.None? then
        Processed(false, f)
      else
        ClassifyAgrees(m.fromHeader, m.subject.value);
        match Classify(TableOrder, m.fromHeader, m.subject.value)
        case None => Processed(false, f)
        case Some(s) => Processed(true, AddToExcel(f, RowFor(m, s, env), env.writable))
  }

  /** The legacy tracker records every message the current one turns into a
      record, and also those where no amount is found: their row holds
      "Unknown" as the amount. */
  lemma LegacyRecordsMore(env: LegacyEnv, m: LegacyMessage, names: NameSearch, now: DateTime)
    requires m.subject.Some? && m.body.Some?
    ensures var e := Email(m.fromHeader, m.subject.value, m.body.value, None);
            && (ProcessEmail(e, now, names).Some? ==> IsRecorded(Some(m)))
            && (IsRecorded(Some(m)) && ProcessEmail(e, now, names).None? ==>
                  ExtractAmount(CombinedText(e)).Failure?)
  {
    ClassifyAgrees(m.fromHeader, m.subject.value);
  }

  // ---------------------------------------------------------------------------
  // `check_for_new_emails`
  // ---------------------------------------------------------------------------

  /** The legacy tracker's state: `processed_uids` and the spreadsheet. */
  datatype LegacyState = LegacyState(seen: set<string>, file: LegacyFile)

  /** The file after `add_to_excel` of each of `rows` in turn: all of them
      appended when the file can be read and written, and otherwise the file
      unchanged. */
  function AddRows(f: LegacyFile, rows: seq<LegacyRow>, writable: bool): LegacyFile {
    if f.Sheet? && writable then Sheet(f.rows + rows) else f
  }

  /** The row of a recorded message, for the provider the legacy loop picks. */
  function RecordedRow(env: LegacyEnv, m: LegacyMessage): LegacyRow
    requires IsRecorded(Some(m))
  {
    RowFor(m, Classify(TableOrder, m.fromHeader, m.subject.value).value, env)
  }

  /** The uids of `ids` whose message is recorded. */
  function RecordedIds(env: LegacyEnv, ids: seq<string>): set<string> {
    if ids == [] then {} else (if IsRecorded(env.fetch(ids[0])) then {ids[0]} else {}) + RecordedIds(env, ids[1..])
  }

  /** The rows a pass over `ids` writes when `seen` is processed already: one
      per listed uid that is not yet processed and whose message is recorded,
      in listing order; a recorded uid is processed for the rest of the list. */
  function RecordedRows(env: LegacyEnv, seen: set<string>, ids: seq<string>): seq<LegacyRow>
    decreases |ids|
  {
    if ids == [] then []
    else if ids[0] in seen || !IsRecorded(env.fetch(ids[0])) then RecordedRows(env, seen, ids[1..])
    else [RecordedRow(env, env.fetch(ids[0]).value)] + RecordedRows(env, seen + {ids[0]}, ids[1..])
  }

  /** The uid loop of one sender: a uid not yet processed is handed to
      `process_email` and remembered only when that answers `True`. Every
      listed recorded uid is processed afterwards, and the sheet gains the
      rows of the recorded uids that were new, in listing order, when it can
      be read and written; otherwise it is unchanged. */
  function ProcessUids(env: LegacyEnv, st: LegacyState, ids: seq<string>): (r: LegacyState)
    ensures r.seen == st.seen + RecordedIds(env, ids)
    ensures r.file == AddRows(st.file, RecordedRows(env, st.seen, ids), env.writable)
    decreases |ids|
  {
    if ids == [] then
      AddNoRows(st.file, env.writable);
      st
    else if ids[0] in st.seen then
      ProcessUids(env, st, ids[1..])
    else
      var p := LegacyProcessEmail(env, env.fetch(ids[0]), st.file);
      var st1 := LegacyState(st.seen + (if p.recorded then {ids[0]} else {}), p.file);
      var r := ProcessUids(env, st1, ids[1..]);
      UidStep(env, st, ids[0]);
      var first := if p.recorded then [RecordedRow(env, env.fetch(ids[0]).value)] else [];
      RecordedRowsHead(env, st.seen, ids);
      AddRowsConcat(st.file, first, RecordedRows(env, st1.seen, ids[1..]), env.writable);
      r
  }

  /** The rows of a list whose first uid is new: that uid's row, if its
      message is recorded, then the rest's rows with the uid processed. */
  lemma RecordedRowsHead(env: LegacyEnv, seen: set<string>, ids: seq<string>)
    requires ids != [] && ids[0] !in seen
    ensures var rec := IsRecorded(env.fetch(ids[0]));
            RecordedRows(env, seen, ids)
            == (if rec then [RecordedRow(env, env.fetch(ids[0]).value)] else [])
               + RecordedRows(env, seen + (if rec then {ids[0]} else {}), ids[1..])
  {
    if !IsRecorded(env.fetch(ids[0])) {
      assert seen + {} == seen;
      assert [] + RecordedRows(env, seen, ids[1..]) == RecordedRows(env, seen, ids[1..]);
    }
  }

  lemma AddNoRows(f: LegacyFile, writable: bool)
    ensures AddRows(f, [], writable) == f
  {
    if f.Sheet? { assert f.rows + [] == f.rows; }
  }

  /** Adding two lists of rows in turn adds their concatenation. */
  lemma AddRowsConcat(f: LegacyFile, a: seq<LegacyRow>, b: seq<LegacyRow>, writable: bool)
    ensures AddRows(AddRows(f, a, writable), b, writable) == AddRows(f, a + b, writable)
  {
    if f.Sheet? && writable {
      assert f.rows + a + b == f.rows + (a + b);
    }
  }

  /** One new uid: `process_email` records it exactly when its message is
      recorded, and then adds that message's row. */
  lemma UidStep(env: LegacyEnv, st: LegacyState, id: string)
    requires id !in st.seen
    ensures var p := LegacyProcessEmail(env, env.fetch(id), st.file);
            && p.recorded == IsRecorded(env.fetch(id))
            && p.file == AddRows(st.file, if p.recorded then [RecordedRow(env, env.fetch(id).value)] else [], env.writable)
  {
    var p := LegacyProcessEmail(env, env.fetch(id), st.file);
    if p.recorded {
      var m := env.fetch(id).value;
      ClassifyAgrees(m.fromHeader, m.subject.value);
    } else {
      AddNoRows(st.file, env.writable);
    }
  }

  /** The senders in the order `check_for_new_emails` builds them: each
      provider's list in dictionary order, not sorted. */
  function LegacySendersOf(order: seq<PaymentSource>): seq<string> {
    if order == [] then [] else LegacyPattern(order[0]).fromEmails + LegacySendersOf(order[1..])
  }

  function LegacySenders(): seq<string> {
    LegacySendersOf(TableOrder)
  }

  /** The rows the sender loop writes when `seen` is processed already: each
      searched sender's recorded rows in sender order, a sender's recorded
      uids counting as processed for the senders after it. */
  function SendersRows(env: LegacyEnv, seen: set<string>, senders: seq<string>): seq<LegacyRow>
    decreases |senders|
  {
    if senders == [] then []
    else match env.search(senders[0])
      case None => SendersRows(env, seen, senders[1..])
      case Some(ids) => RecordedRows(env, seen, ids) + SendersRows(env, seen + RecordedIds(env, ids), senders[1..])
  }

  /** The uids listed for some sender whose message is recorded. */
  function SendersRecordedIds(env: LegacyEnv, senders: seq<string>): set<string>
    decreases |senders|
  {
    if senders == [] then {}
    else match env.search(senders[0])
      case None => SendersRecordedIds(env, senders[1..])
      case Some(ids) => RecordedIds(env, ids) + SendersRecordedIds(env, senders[1..])
  }

  /** The sender loop: a search that raises is logged and the loop goes on.
      The sheet gains the searched senders' recorded rows in sender order. */
  function ProcessLegacySenders(env: LegacyEnv, st: LegacyState, senders: seq<string>): (r: LegacyState)
    ensures r.seen == st.seen + SendersRecordedIds(env, senders)
    ensures r.file == AddRows(st.file, SendersRows(env, st.seen, senders), env.writable)
    decreases |senders|
  {
    if senders == [] then
      AddNoRows(st.file, env.writable);
      st
    else
      var st1 := match env.search(senders[0])
                 case None => st
                 case Some(ids) => ProcessUids(env, st, ids);
      var r := ProcessLegacySenders(env, st1, senders[1..]);
      if env.search(senders[0]).Some? then
        var ids := env.search(senders[0]).value;
        AddRowsConcat(st.file, RecordedRows(env, st.seen, ids), SendersRows(env, st1.seen, senders[1..]), env.writable);
        r
      else
        r
  }

  /** `check_for_new_emails`: nothing happens when the connection fails;
      otherwise the senders are polled in dictionary order, every listed
      recorded uid is processed afterwards, and the sheet gains exactly the
      rows `SendersRows` lists when it can be read and written. */
  function CheckForNewEmails(env: LegacyEnv, st: LegacyState): (r: LegacyState)
    ensures !env.connected ==> r == st
    ensures env.connected ==> r.seen == st.seen + SendersRecordedIds(env, LegacySenders())
    ensures env.connected ==> r.file == AddRows(st.file, SendersRows(env, st.seen, LegacySenders()), env.writable)
  {
    if env.connected then ProcessLegacySenders(env, st, LegacySenders()) else st
  }

  /** The legacy senders are the current ones in another order: the same
      multiset, but unsorted, since "noreply@zellepay.com" precedes
      "alert@zellepay.com". */
  lemma LegacySendersUnsorted()
    ensures multiset(LegacySenders()) == multiset(SupportedSenders())
    ensures !Sorted(LegacySenders())
  {
    LegacyTableAgrees();
    var order := TableOrder;
    assert LegacySendersOf(order) == SendersOf(order) by {
      assert LegacySendersOf(order[3..][1..]) == [] == SendersOf(order[3..][1..]);
    }
    var s := LegacySenders();
    assert s[0] == "noreply@zellepay.com" && s[1] == "alert@zellepay.com";
    assert !LexLe(s[0], s[1]);
  }

  /** `uid` was listed by the search for `sender`. */
  predicate Listed(env: LegacyEnv, sender: string, uid: string) {
    env.search(sender).Some? && uid in env.search(sender).value
  }

  /** After the uid loop, a uid is processed iff it was processed before, or
      it was listed and its message was recorded. */
  lemma {:induction false} UidsMarkRecorded(env: LegacyEnv, st: LegacyState, ids: seq<string>, uid: string)
    ensures uid in ProcessUids(env, st, ids).seen <==> uid in st.seen || (uid in ids && IsRecorded(env.fetch(uid)))
    decreases |ids|
  {
    if ids != [] {
      if ids[0] in st.seen {
        UidsMarkRecorded(env, st, ids[1..], uid);
      } else {
        var p := LegacyProcessEmail(env, env.fetch(ids[0]), st.file);
        UidsMarkRecorded(env, LegacyState(st.seen + (if p.recorded then {ids[0]} else {}), p.file), ids[1..], uid);
      }
    }
  }

  lemma {:induction false} SendersMarkRecorded(env: LegacyEnv, st: LegacyState, senders: seq<string>, uid: string)
    ensures uid in ProcessLegacySenders(env, st, senders).seen <==>
              uid in st.seen || (IsRecorded(env.fetch(uid)) && exists k :: 0 <= k < |senders| && Listed(env, senders[k], uid))
    decreases |senders|
  {
    if senders != [] {
      var st1 := match env.search(senders[0])
                 case None => st
                 case Some(ids) => ProcessUids(env, st, ids);
      if env.search(senders[0]).Some? {
        UidsMarkRecorded(env, st, env.search(senders[0]).value, uid);
      }
      SendersMarkRecorded(env, st1, senders[1..], uid);
      assert forall k :: 0 < k < |senders| ==> senders[k] == senders[1..][k - 1];
      if exists k :: 0 <= k < |senders| && Listed(env, senders[k], uid) {
        var k :| 0 <= k < |senders| && Listed(env, senders[k], uid);
        if k > 0 {
          assert Listed(env, senders[1..][k - 1], uid);
        }
      }
    }
  }

  /** A uid is remembered only when its message produced a row, so a
      non-payment message (or one that failed to fetch or decode) is examined
      again on every cycle. Every listed recorded message is remembered. */
  lemma LegacyMarksOnlyRecorded(env: LegacyEnv, st: LegacyState, uid: string)
    requires env.connected
    ensures uid in CheckForNewEmails(env, st).seen <==>
              uid in st.seen || (IsRecorded(env.fetch(uid)) && exists k :: 0 <= k < |LegacySenders()| && Listed(env, LegacySenders()[k], uid))
    ensures !IsRecorded(env.fetch(uid)) ==> (uid in CheckForNewEmails(env, st).seen <==> uid in st.seen)
  {
    SendersMarkRecorded(env, st, LegacySenders(), uid);
  }

  /** After a restart, processing a payment message again appends its row
      again: with no duplicate check, the spreadsheet then holds it twice. */
  lemma LegacyRestartDuplicates(env: LegacyEnv, rows: seq<LegacyRow>, uid: string)
    requires env.writable && IsRecorded(env.fetch(uid))
    ensures var r1 := ProcessUids(env, LegacyState({}, Sheet(rows)), [uid]);
            var r2 := ProcessUids(env, LegacyState({}, r1.file), [uid]);
            && r2.file.Sheet? && |r2.file.rows| == |rows| + 2
            && r2.file.rows[|rows|] == r2.file.rows[|rows| + 1]
  {
  }
}

=== FILE: payment.dfy ===
/** The payment data model of `models/payment.py`: the provider enumeration, the
    immutable payment record with its six-column row, and the per-provider
    matching pattern. */
module Payment {
  import opened Text
  import opened Decimals

  /** The four supported providers. */
  datatype PaymentSource = Zelle | Venmo | CashApp | PayPal

  /** The enum member's string value, written to the "Source" column. */
  function SourceValue(s: PaymentSource): string {
    match s
    case Zelle => "Zelle"
    case Venmo => "Venmo"
    case CashApp => "CashApp"
    case PayPal => "PayPal"
  }

  /** The members in declaration order. */
  const AllSources: seq<PaymentSource> := [Zelle, Venmo, CashApp, PayPal]

  /** There are exactly four providers and their string values are pairwise
      distinct, so the "Source" column identifies the provider. */
  lemma SourcesEnumerated()
    ensures |AllSources| == 4
    ensures forall s :: s in AllSources
    ensures forall i, j :: 0 <= i < j < |AllSources| ==> SourceValue(AllSources[i]) != SourceValue(AllSources[j])
    ensures forall s, t :: SourceValue(s) == SourceValue(t) ==> s == t
  {
    forall s ensures s in AllSources {
      match s
      case Zelle => assert AllSources[0] == s;
      case Venmo => assert AllSources[1] == s;
      case CashApp => assert AllSources[2] == s;
      case PayPal => assert AllSources[3] == s;
    }
  }

  /** A calendar day, the part of a timestamp that `strftime("%Y-%m-%d")` keeps. */
  datatype Day = Day(year: int, month: int, day: int)

  /** A point in time, as Python's `datetime`. */
  datatype DateTime = DateTime(date: Day, hour: int, minute: int, second: int, microsecond: int)

  /** A timestamp to the second, as `strftime("%Y-%m-%d %H:%M:%S")` prints it. */
  datatype Stamp = Stamp(date: Day, hour: int, minute: int, second: int)

  function ToStamp(t: DateTime): Stamp {
    Stamp(t.date, t.hour, t.minute, t.second)
  }

  /** `PaymentRecord`: a frozen dataclass, constructed once and never changed. */
  datatype PaymentRecord = PaymentRecord(
    date: DateTime,
    amount: Decimal,
    source: PaymentSource,
    clientName: string,
    emailSubject: string,
    processedAt: DateTime)

  /** The store's column headers, in order. */
  const Columns: seq<string> := ["Date", "Amount", "Source", "Client Name", "Email Subject", "Processed Date"]

  /** One stored row: the six columns of `Columns`. */
  datatype Row = Row(
    date: Day,
    amount: Decimal,
    source: string,
    clientName: string,
    emailSubject: string,
    processedDate: Stamp)

  /** The value held in one cell of a row. */
  datatype Cell = DayCell(day: Day) | AmountCell(amount: Decimal) | TextCell(text: string) | StampCell(stamp: Stamp)

  /** A row seen as the dictionary `to_dict` returns: column name to cell. */
  function Cells(row: Row): map<string, Cell> {
    map[
      "Date" := DayCell(row.date),
      "Amount" := AmountCell(row.amount),
      "Source" := TextCell(row.source),
      "Client Name" := TextCell(row.clientName),
      "Email Subject" := TextCell(row.emailSubject),
      "Processed Date" := StampCell(row.processedDate)]
  }

  /** `PaymentRecord.to_dict`. */
  function ToDict(rec: PaymentRecord): Row {
    Row(rec.date.date, rec.amount, SourceValue(rec.source), rec.clientName, rec.emailSubject, ToStamp(rec.processedAt))
  }

  /** The row has exactly the six standard columns; its Amount is the record's
      decimal unchanged, its Source the enum's string value, its Date the payment
      day and its Processed Date the processing time to the second. */
  lemma ToDictColumns(rec: PaymentRecord)
    ensures Cells(ToDict(rec)).Keys == set c | c in Columns
    ensures |Columns| == 6 && forall i, j :: 0 <= i < j < 6 ==> Columns[i] != Columns[j]
    ensures Cells(ToDict(rec))["Amount"] == AmountCell(rec.amount)
    ensures Cells(ToDict(rec))["Source"] == TextCell(SourceValue(rec.source))
    ensures Cells(ToDict(rec))["Date"] == DayCell(rec.date.date)
    ensures Cells(ToDict(rec))["Client Name"] == TextCell(rec.clientName)
    ensures Cells(ToDict(rec))["Email Subject"] == TextCell(rec.emailSubject)
    ensures Cells(ToDict(rec))["Processed Date"] == StampCell(ToStamp(rec.processedAt))
  {
  }

  /** `PaymentPattern`: the sender addresses and subject keywords that identify a
      provider's mail, and the two regular expressions used on its text. */
  datatype PaymentPattern = PaymentPattern(
    fromEmails: seq<string>,
    subjectKeywords: seq<string>,
    amountPattern: string,
    namePattern: string)

  /** `matches_sender`: some configured sender address is a substring of the
      lower-cased From value. */
  function MatchesSender(p: PaymentPattern, fromEmail: string): (r: bool)
    ensures r <==> SomeOccurs(Lower(fromEmail), p.fromEmails)
  {
    AnyOccurs(Lower(fromEmail), p.fromEmails)
  }

  /** `matches_subject`: some keyword is a substring of the lower-cased subject. */
  function MatchesSubject(p: PaymentPattern, subject: string): (r: bool)
    ensures r <==> SomeOccurs(Lower(subject), p.subjectKeywords)
  {
    AnyOccurs(Lower(subject), p.subjectKeywords)
  }

  /** Both tests lower-case their input first, so changing the letter case of
      the From value or the subject never changes the answer. */
  lemma MatchingIgnoresCase(p: PaymentPattern, a: string, b: string)
    requires CaseVariants(a, b)
    ensures MatchesSender(p, a) == MatchesSender(p, b)
    ensures MatchesSubject(p, a) == MatchesSubject(p, b)
  {
    LowerIdentifiesCaseVariants(a, b);
  }

  /** `any` over an empty collection is false: a pattern with no senders or no
      keywords matches nothing. */
  lemma EmptyPatternNeverMatches(p: PaymentPattern, fromEmail: string, subject: string)
    ensures p.fromEmails == [] ==> !MatchesSender(p, fromEmail)
    ensures p.subjectKeywords == [] ==> !MatchesSubject(p, subject)
  {
  }
}

=== FILE: processor.dfy ===
/** `core/payment_processor.py`: the provider pattern table, the classifier,
    the amount and client-name extractors, and `process_email`, which composes
    them into a payment record. */
module Processor {
  import opened Wrappers
  import opened Text
  import opened Decimals
  import opened Sorting
  import opened Payment

  // ---------------------------------------------------------------------------
  // The pattern table (`_initialize_patterns`)
  // ---------------------------------------------------------------------------

  /** The amount expression every provider uses: a dollar sign, then a run of
      digits and commas, an optional point and a run of digits (group 1). */
  const AmountPattern: string := @"\$([0-9,]+\.?[0-9]*)"

  /** The name expression of Zelle, CashApp and PayPal. */
  const SentYouNamePattern: string :=
    @"([A-Za-z]+\s+[A-Za-z]+(?:\s+[A-Za-z]+)?)\s+sent\s+you|from\s+([A-Za-z]+\s+[A-Za-z]+(?:\s+[A-Za-z]+)?)"

  /** The name expression of Venmo. */
  const PaidYouNamePattern: string :=
    @"([A-Za-z]+\s+[A-Za-z]+(?:\s+[A-Za-z]+)?)\s+paid\s+you|from\s+([A-Za-z]+\s+[A-Za-z]+(?:\s+[A-Za-z]+)?)"

  function PatternFor(s: PaymentSource): PaymentPattern {
    match s
    case Zelle =>
      PaymentPattern(["noreply@zellepay.com", "alert@zellepay.com"], ["sent you", "received", "payment"],
                     AmountPattern, SentYouNamePattern)
    case Venmo =>
      PaymentPattern(["venmo@venmo.com", "notifications@venmo.com"], ["paid you", "charged you", "payment"],
                     AmountPattern, PaidYouNamePattern)
    case CashApp =>
      PaymentPattern(["cash@square.com", "support@cash.app"], ["sent you", "received", "payment"],
                     AmountPattern, SentYouNamePattern)
    case PayPal =>
      PaymentPattern(["service@paypal.com", "paypal@e.paypal.com"], ["sent you", "received", "payment"],
                     AmountPattern, SentYouNamePattern)
  }

  /** The table's iteration order (dictionary insertion order). */
  const TableOrder: seq<PaymentSource> := [Zelle, Venmo, CashApp, PayPal]

  /** A provider's position in `TableOrder`. */
  function Rank(s: PaymentSource): (k: nat)
    ensures k < |TableOrder| && TableOrder[k] == s
  {
    match s
    case Zelle => 0
    case Venmo => 1
    case CashApp => 2
    case PayPal => 3
  }

  /** The table is complete, lists each provider once, gives every provider
      non-empty sender and keyword sets, and uses one amount expression for all
      four, which is why a single amount scanner serves every provider. */
  lemma PatternTableWellFormed()
    ensures forall s :: s in TableOrder
    ensures forall i, j :: 0 <= i < j < |TableOrder| ==> TableOrder[i] != TableOrder[j]
    ensures forall s :: PatternFor(s).fromEmails != [] && PatternFor(s).subjectKeywords != []
    ensures forall s :: PatternFor(s).amountPattern == AmountPattern
  {
    forall s ensures s in TableOrder {
      assert TableOrder[Rank(s)] == s;
    }
  }

  // ---------------------------------------------------------------------------
  // Classification (`identify_payment_source`)
  // ---------------------------------------------------------------------------

  /** Both of a provider's conditions hold for the message. */
  predicate Matches(s: PaymentSource, fromEmail: string, subject: string) {
    MatchesSender(PatternFor(s), fromEmail) && MatchesSubject(PatternFor(s), subject)
  }

  /** The first provider of `order` that matches. */
  function FirstMatch(order: seq<PaymentSource>, fromEmail: string, subject: string): (r: Option<PaymentSource>)
    ensures r.None? <==> forall k :: 0 <= k < |order| ==> !Matches(order[k], fromEmail, subject)
    ensures r.Some? ==> exists k :: 0 <= k < |order| && order[k] == r.value && Matches(r.value, fromEmail, subject)
                                    && forall j :: 0 <= j < k ==> !Matches(order[j], fromEmail, subject)
  {
    if order == [] then
      None
    else if Matches(order[0], fromEmail, subject) then
      Some(order[0])
    else
      var r := FirstMatch(order[1..], fromEmail, subject);
      if r.Some? then
        var k :| 0 <= k < |order[1..]| && order[1..][k] == r.value && Matches(r.value, fromEmail, subject)
                 && forall j :: 0 <= j < k ==> !Matches(order[1..][j], fromEmail, subject);
        assert order[k + 1] == r.value;
        assert forall j :: 0 <= j < k + 1 ==> !Matches(order[j], fromEmail, subject) by {
          forall j | 0 <= j < k + 1 ensures !Matches(order[j], fromEmail, subject) {
            if j > 0 { assert order[j] == order[1..][j - 1]; }
          }
        }
        r
      else
        assert forall k :: 0 <= k < |order| ==> !Matches(order[k], fromEmail, subject) by {
          forall k | 0 <= k < |order| ensures !Matches(order[k], fromEmail, subject) {
            if k > 0 { assert order[k] == order[1..][k - 1]; }
          }
        }
        r
  }

  /** `identify_payment_source`: the provider returned is one whose sender and
      subject conditions both hold and no provider earlier in the table holds
      both; it is `None` exactly when no provider matches. */
  function IdentifySource(fromEmail: string, subject: string): (r: Option<PaymentSource>)
    ensures forall s :: r == Some(s) <==>
              Matches(s, fromEmail, subject) && forall t :: Rank(t) < Rank(s) ==> !Matches(t, fromEmail, subject)
    ensures r.None? <==> forall s :: !Matches(s, fromEmail, subject)
  {
    forall s ensures FirstMatch(TableOrder, fromEmail, subject) == Some(s) <==>
        Matches(s, fromEmail, subject) && forall t :: Rank(t) < Rank(s) ==> !Matches(t, fromEmail, subject) {
      if FirstMatch(TableOrder, fromEmail, subject) == Some(s) {
        FirstMatchIsEarliest(fromEmail, subject, s);
      }
      if Matches(s, fromEmail, subject) && forall t :: Rank(t) < Rank(s) ==> !Matches(t, fromEmail, subject) {
        EarliestIsFirstMatch(fromEmail, subject, s);
      }
    }
    FirstMatchNone(fromEmail, subject);
    FirstMatch(TableOrder, fromEmail, subject)
  }

  lemma FirstMatchIsEarliest(fromEmail: string, subject: string, s: PaymentSource)
    requires FirstMatch(TableOrder, fromEmail, subject) == Some(s)
    ensures Matches(s, fromEmail, subject) && forall t :: Rank(t) < Rank(s) ==> !Matches(t, fromEmail, subject)
  {
    var k :| 0 <= k < |TableOrder| && TableOrder[k] == s && forall j :: 0 <= j < k ==> !Matches(TableOrder[j], fromEmail, subject);
    RankOfPosition(k);
    forall t | Rank(t) < Rank(s) ensures !Matches(t, fromEmail, subject) {
      assert TableOrder[Rank(t)] == t;
    }
  }

  lemma RankOfPosition(k: nat)
    requires k < |TableOrder|
    ensures Rank(TableOrder[k]) == k
  {
  }

  lemma EarliestIsFirstMatch(fromEmail: string, subject: string, s: PaymentSource)
    requires Matches(s, fromEmail, subject) && forall t :: Rank(t) < Rank(s) ==> !Matches(t, fromEmail, subject)
    ensures FirstMatch(TableOrder, fromEmail, subject) == Some(s)
  {
    var r := FirstMatch(TableOrder, fromEmail, subject);
    assert r.Some? by {
      assert Matches(TableOrder[Rank(s)], fromEmail, subject);
    }
    FirstMatchIsEarliest(fromEmail, subject, r.value);
    assert Rank(r.value) == Rank(s);
  }

  lemma FirstMatchNone(fromEmail: string, subject: string)
    ensures FirstMatch(TableOrder, fromEmail, subject).None? <==> forall s :: !Matches(s, fromEmail, subject)
  {
    if FirstMatch(TableOrder, fromEmail, subject).None? {
      forall s ensures !Matches(s, fromEmail, subject) { assert TableOrder[Rank(s)] == s; }
    }
  }

  // ---------------------------------------------------------------------------
  // Amount extraction (`extract_amount`)
  // ---------------------------------------------------------------------------

  /** A character of the `[0-9,]` class. */
  predicate IsAmountChar(c: char) {
    IsDigit(c) || c == ','
  }

  predicate AllAmountChars(s: string) {
    forall i :: 0 <= i < |s| ==> IsAmountChar(s[i])
  }

  /** The expression can match at `i`: a `$` followed by a digit or a comma. */
  predicate AmountStartsAt(text: string, i: int) {
    0 <= i && i + 1 < |text| && text[i] == '$' && IsAmountChar(text[i + 1])
  }

  /** The first position at or after `from` where the expression can match. */
  function FindAmountStart(text: string, from: nat): (r: Option<nat>)
    requires from <= |text|
    ensures r.None? ==> forall i :: from <= i < |text| ==> !AmountStartsAt(text, i)
    ensures r.Some? ==> from <= r.value && AmountStartsAt(text, r.value)
                        && forall i :: from <= i < r.value ==> !AmountStartsAt(text, i)
    decreases |text| - from
  {
    if from == |text| then None
    else if AmountStartsAt(text, from) then Some(from)
    else FindAmountStart(text, from + 1)
  }

  /** The end of the greedy run starting at `k` of digits, and also of commas
      when `commas` holds. */
  function RunEnd(text: string, k: nat, commas: bool): (j: nat)
    requires k <= |text|
    ensures k <= j <= |text|
    ensures forall m :: k <= m < j ==> IsDigit(text[m]) || (commas && text[m] == ',')
    ensures j == |text| || !(IsDigit(text[j]) || (commas && text[j] == ','))
    decreases |text| - k
  {
    if k < |text| && (IsDigit(text[k]) || (commas && text[k] == ',')) then RunEnd(text, k + 1, commas) else k
  }

  /** One match of the amount expression: where its `$` is, the `[0-9,]+` run,
      and the digits after the point when a point follows the run. Group 1 is
      `whole`, followed by `"." + f` when `frac == Some(f)`. */
  datatype AmountMatch = AmountMatch(start: nat, whole: string, frac: Option<string>)

  /** Group 1 of a match as text. */
  function GroupText(m: AmountMatch): string {
    m.whole + (if m.frac.Some? then "." + m.frac.value else "")
  }

  /** `m` is the leftmost match in `text`, with each greedy part as long as the
      text allows: what `re.search` returns for the amount expression. */
  ghost predicate IsLeftmostMatch(text: string, m: AmountMatch) {
    var w := m.start + 1 + |m.whole|;
    && AmountStartsAt(text, m.start)
    && (forall k :: 0 <= k < m.start ==> !AmountStartsAt(text, k))
    && |m.whole| >= 1 && AllAmountChars(m.whole)
    && w <= |text| && text[m.start + 1..w] == m.whole
    && (w == |text| || !IsAmountChar(text[w]))
    && match m.frac
       case None => w == |text| || text[w] != '.'
       case Some(f) =>
         && w < |text| && text[w] == '.'
         && AllDigits(f) && w + 1 + |f| <= |text| && text[w + 1..w + 1 + |f|] == f
         && (w + 1 + |f| == |text| || !IsDigit(text[w + 1 + |f|]))
  }

  /** The leftmost match is unique: each part is determined by the text. */
  lemma LeftmostMatchUnique(text: string, m1: AmountMatch, m2: AmountMatch)
    requires IsLeftmostMatch(text, m1) && IsLeftmostMatch(text, m2)
    ensures m1 == m2
  {
    LeftmostStartsAgree(text, m1, m2);
    MaximalRunsAgree(text, m1.start + 1, m1.whole, m2.whole, true);
    LeftmostFracsAgree(text, m1, m2);
  }

  lemma LeftmostStartsAgree(text: string, m1: AmountMatch, m2: AmountMatch)
    requires IsLeftmostMatch(text, m1) && IsLeftmostMatch(text, m2)
    ensures m1.start == m2.start
  {
  }

  lemma LeftmostFracsAgree(text: string, m1: AmountMatch, m2: AmountMatch)
    requires IsLeftmostMatch(text, m1) && IsLeftmostMatch(text, m2)
    requires m1.start == m2.start && m1.whole == m2.whole
    ensures m1.frac == m2.frac
  {
    var w := m1.start + 1 + |m1.whole|;
    if m1.frac.Some? && m2.frac.Some? {
      MaximalRunsAgree(text, w + 1, m1.frac.value, m2.frac.value, false);
    }
  }

  /** Two greedy runs of the same character class starting at the same place
      are the same run. */
  lemma MaximalRunsAgree(text: string, lo: nat, a: string, b: string, commas: bool)
    requires lo + |a| <= |text| && text[lo..lo + |a|] == a
    requires lo + |b| <= |text| && text[lo..lo + |b|] == b
    requires forall k :: 0 <= k < |a| ==> IsDigit(a[k]) || (commas && a[k] == ',')
    requires forall k :: 0 <= k < |b| ==> IsDigit(b[k]) || (commas && b[k] == ',')
    requires lo + |a| == |text| || !(IsDigit(text[lo + |a|]) || (commas && text[lo + |a|] == ','))
    requires lo + |b| == |text| || !(IsDigit(text[lo + |b|]) || (commas && text[lo + |b|] == ','))
    ensures a == b
  {
    SliceChars(text, lo, a);
    SliceChars(text, lo, b);
  }

  /** Each character of a slice is the text's character at the same offset. */
  lemma SliceChars(text: string, lo: nat, part: string)
    requires lo + |part| <= |text| && text[lo..lo + |part|] == part
    ensures forall k :: lo <= k < lo + |part| ==> text[k] == part[k - lo]
  {
  }

  /** `re.search(AmountPattern, text)`: the leftmost match, or `None` when no
      `$` in the text is followed by a digit or a comma. */
  function MatchAmount(text: string): (r: Option<AmountMatch>)
    ensures r.None? <==> forall i :: 0 <= i < |text| ==> !AmountStartsAt(text, i)
    ensures r.Some? ==> IsLeftmostMatch(text, r.value)
  {
    match FindAmountStart(text, 0)
    case None => None
    case Some(i) =>
      ScanIsLeftmost(text, i);
      Some(ScanFrom(text, i))
  }

  /** The match the scanner reads from a `$` at `i`: the longest `[0-9,]` run,
      then, after a point, the longest digit run. */
  function ScanFrom(text: string, i: nat): AmountMatch
    requires i < |text|
  {
    var e := RunEnd(text, i + 1, true);
    if e < |text| && text[e] == '.' then
      AmountMatch(i, text[i + 1..e], Some(text[e + 1..RunEnd(text, e + 1, false)]))
    else
      AmountMatch(i, text[i + 1..e], None)
  }

  /** Read from the first place the expression can match, the scanner's match
      is the leftmost one. */
  lemma ScanIsLeftmost(text: string, i: nat)
    requires FindAmountStart(text, 0) == Some(i)
    ensures IsLeftmostMatch(text, ScanFrom(text, i))
  {
    var e := RunEnd(text, i + 1, true);
    var whole := text[i + 1..e];
    assert AllAmountChars(whole) by {
      forall k | 0 <= k < |whole| ensures IsAmountChar(whole[k]) {
        assert whole[k] == text[i + 1 + k];
      }
    }
    if e < |text| && text[e] == '.' {
      var e2 := RunEnd(text, e + 1, false);
      var f := text[e + 1..e2];
      assert AllDigits(f) by {
        forall k | 0 <= k < |f| ensures IsDigit(f[k]) {
          assert f[k] == text[e + 1 + k];
        }
      }
    }
  }

  /** `s.replace(',', '')`. */
  function RemoveCommas(s: string): (r: string)
    ensures forall i :: 0 <= i < |r| ==> r[i] != ','
    ensures AllAmountChars(s) ==> AllDigits(r)
    ensures AllAmountChars(s) ==> (r == [] <==> forall i :: 0 <= i < |s| ==> s[i] == ',')
    ensures AllDigits(s) ==> r == s
  {
    if s == [] then []
    else if s[0] == ',' then
      var r := RemoveCommas(s[1..]);
      assert AllAmountChars(s) ==> AllAmountChars(s[1..]);
      assert (forall i :: 0 <= i < |s| ==> s[i] == ',') <==> (forall i :: 0 <= i < |s[1..]| ==> s[1..][i] == ',');
      r
    else
      var r := [s[0]] + RemoveCommas(s[1..]);
      assert AllAmountChars(s) ==> AllAmountChars(s[1..]);
      assert AllDigits(s) ==> AllDigits(s[1..]);
      assert AllDigits(s) ==> r == [s[0]] + s[1..] == s;
      r
  }
  /** Removing commas works character by character: a comma is dropped and any
      other character kept. With `RemoveCommasConcat` this fixes the result of
      `s.replace(',', '')` for every string. */
  lemma RemoveCommasChar(c: char)
    ensures RemoveCommas([c]) == if c == ',' then [] else [c]
  {
    assert [c][1..] == [];
  }

  /** Removing commas from a concatenation removes them from each part. */
  lemma {:induction false} RemoveCommasConcat(a: string, b: string)
    ensures RemoveCommas(a + b) == RemoveCommas(a) + RemoveCommas(b)
  {
    if a == [] {
      assert a + b == b;
    } else {
      assert (a + b)[1..] == a[1..] + b;
      RemoveCommasConcat(a[1..], b);
    }
  }


  /** The two errors `extract_amount` raises as `PaymentProcessorError`. */
  datatype AmountError =
    | AmountNotFound                 // "Could not extract payment amount from text"
    | AmountMalformed(text: string)  // "Invalid amount format: <text>"

  /** The text handed to `Decimal`: group 1 with every comma removed. */
  function StrippedGroup(m: AmountMatch): string {
    RemoveCommas(m.whole) + (if m.frac.Some? then "." + m.frac.value else "")
  }

  /** `extract_amount(text, AmountPattern)`: the exact decimal written after the
      leftmost `$`-match, commas ignored. It fails with `AmountNotFound` exactly
      when no `$` is followed by a digit or comma, and with `AmountMalformed`
      exactly when the match holds no digit at all (as in "$,," or "$,."). */
  function ExtractAmount(text: string): (r: Result<Decimal, AmountError>)
    ensures r == Failure(AmountNotFound) <==> forall i :: 0 <= i < |text| ==> !AmountStartsAt(text, i)
    ensures r.Failure? && r.error.AmountMalformed? <==>
              exists m :: IsLeftmostMatch(text, m) && !HasDigit(GroupText(m))
    ensures r.Success? ==> exists m :: IsLeftmostMatch(text, m) && ParseDecimal(StrippedGroup(m)) == Some(r.value)
  {
    match MatchAmount(text)
    case None => Failure(AmountNotFound)
    case Some(m) =>
      var stripped := StrippedGroup(m);
      StrippedNumeral(m);
      forall m' | IsLeftmostMatch(text, m') ensures m' == m {
        LeftmostMatchUnique(text, m, m');
      }
      match ParseDecimal(stripped)
      case None => Failure(AmountMalformed(stripped))
      case Some(d) => Success(d)
  }

  /** A group holds a digit. */
  predicate HasDigit(s: string) {
    exists i :: 0 <= i < |s| && IsDigit(s[i])
  }

  /** The stripped group is a numeral exactly when the group holds a digit. */
  lemma StrippedNumeral(m: AmountMatch)
    requires AllAmountChars(m.whole) && (m.frac.Some? ==> AllDigits(m.frac.value))
    ensures IsNumeral(StrippedGroup(m)) <==> HasDigit(GroupText(m))
  {
    if m.frac.None? {
      StrippedNumeralWhole(m);
    } else {
      StrippedNumeralPointed(m);
    }
  }

  lemma StrippedNumeralWhole(m: AmountMatch)
    requires AllAmountChars(m.whole) && m.frac.None?
    ensures IsNumeral(StrippedGroup(m)) <==> HasDigit(GroupText(m))
  {
    var w := RemoveCommas(m.whole);
    var g := GroupText(m);
    var s := StrippedGroup(m);
    assert s == w && g == m.whole;
    assert HasDigit(g) <==> w != [] by {
      if w == [] {
        forall i | 0 <= i < |g| ensures !IsDigit(g[i]) { assert g[i] == ','; }
      } else {
        var i :| 0 <= i < |g| && g[i] != ',';
        assert IsDigit(g[i]);
      }
    }
    assert IsNumeral(s) <==> w != [] by {
      if w != [] { assert IsDigit(s[0]); }
    }
  }

  lemma StrippedNumeralPointed(m: AmountMatch)
    requires AllAmountChars(m.whole) && m.frac.Some? && AllDigits(m.frac.value)
    ensures IsNumeral(StrippedGroup(m)) <==> HasDigit(GroupText(m))
  {
    var w := RemoveCommas(m.whole);
    var g := GroupText(m);
    var s := StrippedGroup(m);
    var f := m.frac.value;
    var k := |w|;
    assert s == w + "." + f;
    assert s[k] == '.';
    assert s[..k] == w && s[k + 1..] == f;
    assert '.' !in s[..k] by {
      forall i | 0 <= i < k ensures s[..k][i] != '.' { assert IsDigit(w[i]); }
    }
    NumeralSplit(s, k);
    assert g == m.whole + "." + f;
    assert HasDigit(g) <==> (w != [] || f != []) by {
      if w != [] {
        var i :| 0 <= i < |m.whole| && m.whole[i] != ',';
        assert g[i] == m.whole[i];
      } else if f != [] {
        assert g[|m.whole| + 1] == f[0];
      } else {
        forall i | 0 <= i < |g| ensures !IsDigit(g[i]) {
          if i < |m.whole| { assert g[i] == m.whole[i] == ','; } else { assert g[i] == '.'; }
        }
      }
    }
  }

  /** What may follow a written amount without extending the match: nothing, or
      a character that neither the digit runs nor the optional point take. */
  predicate EndsAmount(frac: Option<string>, suffix: string) {
    suffix == [] || (!IsAmountChar(suffix[0]) && (frac.None? ==> suffix[0] != '.'))
  }

  /** `group` written after a dollar sign, between `prefix` and `suffix`. */
  function Written(prefix: string, group: string, suffix: string): string {
    prefix + "$" + group + suffix
  }

  /** Text with no match of its own. */
  predicate NoAmountIn(text: string) {
    forall i :: 0 <= i < |text| ==> !AmountStartsAt(text, i)
  }

  /** No match starts inside a prefix without one, whatever is written after it. */
  lemma PrefixHasNoStart(prefix: string, group: string, suffix: string)
    requires NoAmountIn(prefix)
    ensures forall k :: 0 <= k < |prefix| ==> !AmountStartsAt(Written(prefix, group, suffix), k)
  {
    var text := Written(prefix, group, suffix);
    forall k | 0 <= k < |prefix| ensures !AmountStartsAt(text, k) {
      assert !AmountStartsAt(prefix, k);
      assert text[k] == prefix[k];
      if k + 1 < |prefix| { assert text[k + 1] == prefix[k + 1]; } else { assert text[k + 1] == '$'; }
    }
  }

  /** An amount written after text with no match of its own, and followed by
      text that cannot extend it, is exactly the match `re.search` finds. */
  lemma MatchesWrittenAmount(prefix: string, whole: string, frac: Option<string>, suffix: string)
    requires NoAmountIn(prefix)
    requires |whole| >= 1 && AllAmountChars(whole)
    requires frac.Some? ==> AllDigits(frac.value)
    requires EndsAmount(frac, suffix)
    ensures var m := AmountMatch(|prefix|, whole, frac);
            MatchAmount(Written(prefix, GroupText(m), suffix)) == Some(m)
  {
    var m := AmountMatch(|prefix|, whole, frac);
    var text := Written(prefix, GroupText(m), suffix);
    WrittenIsLeftmost(prefix, whole, frac, suffix);
    LeftmostMatchUnique(text, m, MatchAmount(text).value);
  }

  lemma WrittenIsLeftmost(prefix: string, whole: string, frac: Option<string>, suffix: string)
    requires NoAmountIn(prefix)
    requires |whole| >= 1 && AllAmountChars(whole)
    requires frac.Some? ==> AllDigits(frac.value)
    requires EndsAmount(frac, suffix)
    ensures IsLeftmostMatch(Written(prefix, GroupText(AmountMatch(|prefix|, whole, frac)), suffix),
                            AmountMatch(|prefix|, whole, frac))
  {
    var m := AmountMatch(|prefix|, whole, frac);
    var text := Written(prefix, GroupText(m), suffix);
    var p := |prefix|;
    var w := p + 1 + |whole|;
    assert text[p] == '$' && text[p + 1] == whole[0];
    PrefixHasNoStart(prefix, GroupText(m), suffix);
    assert text[p + 1..w] == whole;
    match frac {
      case None =>
        assert w < |text| ==> text[w] == suffix[0];
      case Some(f) =>
        assert text[w] == '.';
        assert text[w + 1..w + 1 + |f|] == f;
        assert w + 1 + |f| < |text| ==> text[w + 1 + |f|] == suffix[0];
    }
  }

  /** `Decimal` applied to a stripped group: the digits with commas dropped,
      the digits after the point giving the scale; `None` without any digit. */
  lemma ParseStripped(m: AmountMatch)
    requires AllAmountChars(m.whole) && (m.frac.Some? ==> AllDigits(m.frac.value))
    ensures var w, f := RemoveCommas(m.whole), m.frac.GetOr("");
            && AllDigits(w + f)
            && (HasDigit(GroupText(m)) ==> ParseDecimal(StrippedGroup(m)) == Some(Decimal(DigitsValue(w + f), |f|)))
            && (!HasDigit(GroupText(m)) ==> ParseDecimal(StrippedGroup(m)) == None)
  {
    var f := m.frac.GetOr("");
    var w := RemoveCommas(m.whole);
    StrippedNumeral(m);
    var stripped := StrippedGroup(m);
    assert AllDigits(w + f) by {
      forall i | 0 <= i < |w + f| ensures IsDigit((w + f)[i]) {
        if i < |w| { assert (w + f)[i] == w[i]; } else { assert (w + f)[i] == f[i - |w|]; }
      }
    }
    if m.frac.None? {
      assert stripped == w == w + f;
      assert IndexOf(stripped, '.') == None by {
        forall i | 0 <= i < |stripped| ensures stripped[i] != '.' { assert IsDigit(w[i]); }
      }
    } else {
      assert stripped == w + "." + f;
      assert stripped[..|w|] == w && stripped[|w| + 1..] == f;
      assert stripped[|w|] == '.';
      assert '.' !in stripped[..|w|] by {
        forall i | 0 <= i < |w| ensures stripped[..|w|][i] != '.' { assert IsDigit(w[i]); }
      }
      assert IndexOf(stripped, '.') == Some(|w|);
    }
  }

  /** The value of a written amount: its digits with commas dropped, the digits
      after the point giving the scale. Without any digit it is malformed. */
  lemma ExtractsWrittenAmount(prefix: string, whole: string, frac: Option<string>, suffix: string)
    requires NoAmountIn(prefix)
    requires |whole| >= 1 && AllAmountChars(whole)
    requires frac.Some? ==> AllDigits(frac.value)
    requires EndsAmount(frac, suffix)
    ensures var m := AmountMatch(|prefix|, whole, frac);
            var f := frac.GetOr("");
            var r := ExtractAmount(Written(prefix, GroupText(m), suffix));
            && AllDigits(RemoveCommas(whole) + f)
            && (HasDigit(GroupText(m)) ==> r == Success(Decimal(DigitsValue(RemoveCommas(whole) + f), |f|)))
            && (!HasDigit(GroupText(m)) ==> r == Failure(AmountMalformed(StrippedGroup(m))))
  {
    MatchesWrittenAmount(prefix, whole, frac, suffix);
    ParseStripped(AmountMatch(|prefix|, whole, frac));
  }

  /** Rendering a decimal after a dollar sign and reading it back gives the
      same decimal, coefficient and scale. */
  lemma ExtractRendered(d: Decimal, prefix: string, suffix: string)
    requires NoAmountIn(prefix)
    requires EndsAmount(None, suffix)
    ensures ExtractAmount(Written(prefix, Render(d), suffix)) == Success(d)
  {
    var p := PaddedDigits(d);
    if d.scale == 0 {
      RenderedAsWhole(prefix, p, suffix);
      assert Render(d) == p;
    } else {
      var cut := |p| - d.scale;
      var whole, f := p[..cut], p[cut..];
      SplitDigits(p, cut);
      PointGroup(|prefix|, whole, f);
      var g := GroupText(AmountMatch(|prefix|, whole, Some(f)));
      assert g == Render(d);
      RenderedWithPoint(prefix, whole, f, suffix);
      assert DigitsValue(whole + f) == d.digits && |f| == d.scale;
    }
  }

  /** Both pieces of a digit string cut at `cut` are digit strings. */
  lemma SplitDigits(p: string, cut: nat)
    requires AllDigits(p) && cut <= |p|
    ensures AllDigits(p[..cut]) && AllDigits(p[cut..]) && p[..cut] + p[cut..] == p
  {
    assert forall i :: 0 <= i < |p[cut..]| ==> p[cut..][i] == p[cut + i];
  }

  /** The group text of a match with a point. */
  lemma PointGroup(start: nat, whole: string, f: string)
    ensures GroupText(AmountMatch(start, whole, Some(f))) == whole + "." + f
  {
  }

  /** The integer case of `ExtractRendered`: a digit string reads as itself. */
  lemma RenderedAsWhole(prefix: string, p: string, suffix: string)
    requires NoAmountIn(prefix) && EndsAmount(None, suffix)
    requires AllDigits(p) && |p| >= 1
    ensures ExtractAmount(Written(prefix, p, suffix)) == Success(Decimal(DigitsValue(p), 0))
  {
    var m := AmountMatch(|prefix|, p, None);
    assert GroupText(m) == p;
    assert AllAmountChars(p);
    assert HasDigit(GroupText(m)) by { assert IsDigit(p[0]); }
    ExtractsWrittenAmount(prefix, p, None, suffix);
    assert RemoveCommas(p) + "" == p;
  }

  /** The fractional case of `ExtractRendered`: digits, a point and digits read
      as all the digits scaled by those after the point. */
  lemma RenderedWithPoint(prefix: string, whole: string, f: string, suffix: string)
    requires NoAmountIn(prefix) && EndsAmount(None, suffix)
    requires AllDigits(whole) && AllDigits(f) && |whole| >= 1
    ensures AllDigits(whole + f)
    ensures ExtractAmount(Written(prefix, GroupText(AmountMatch(|prefix|, whole, Some(f))), suffix))
         == Success(Decimal(DigitsValue(whole + f), |f|))
  {
    var m := AmountMatch(|prefix|, whole, Some(f));
    assert HasDigit(GroupText(m)) by { assert GroupText(m)[0] == whole[0]; }
    assert AllAmountChars(whole);
    ExtractsWrittenAmount(prefix, whole, Some(f), suffix);
  }

  /** Thousands separators are ignored: an amount reads the same with every
      comma of its integer part removed. */
  lemma CommasIgnored(prefix: string, whole: string, frac: Option<string>, suffix: string)
    requires NoAmountIn(prefix)
    requires AllAmountChars(whole) && HasDigit(whole)
    requires frac.Some? ==> AllDigits(frac.value)
    requires EndsAmount(frac, suffix)
    ensures ExtractAmount(Written(prefix, GroupText(AmountMatch(0, whole, frac)), suffix))
         == ExtractAmount(Written(prefix, GroupText(AmountMatch(0, RemoveCommas(whole), frac)), suffix))
  {
    var w := RemoveCommas(whole);
    var i :| 0 <= i < |whole| && IsDigit(whole[i]);
    assert w != [];
    assert AllAmountChars(w) by { forall k | 0 <= k < |w| ensures IsAmountChar(w[k]) { assert IsDigit(w[k]); } }
    assert RemoveCommas(w) == w;
    ExtractsWrittenAmount(prefix, whole, frac, suffix);
    ExtractsWrittenAmount(prefix, w, frac, suffix);
    var m1 := AmountMatch(|prefix|, whole, frac);
    var m2 := AmountMatch(|prefix|, w, frac);
    assert GroupText(m1)[i] == whole[i];
    assert GroupText(m2)[0] == w[0] && IsDigit(w[0]);
  }

  /** "$1,234.56" after any text without an amount of its own is the amount
      1234.56, kept exactly as coefficient 123456 and two fractional digits. */
  lemma ExtractExample(prefix: string, whole: string, frac: string)
    requires NoAmountIn(prefix)
    requires whole == "1,234" && frac == "56"
    ensures ExtractAmount(prefix + "$" + whole + "." + frac) == Success(Decimal(123456, 2))
  {
    var m := AmountMatch(|prefix|, whole, Some(frac));
    PointGroup(|prefix|, whole, frac);
    assert Written(prefix, GroupText(m), "") == prefix + "$" + whole + "." + frac;
    ExampleMatch(prefix, whole, frac);
    ExampleDigits(whole, frac);
  }

  lemma ExampleMatch(prefix: string, whole: string, frac: string)
    requires NoAmountIn(prefix)
    requires whole == "1,234" && frac == "56"
    ensures ExtractAmount(Written(prefix, GroupText(AmountMatch(|prefix|, whole, Some(frac))), ""))
         == Success(Decimal(DigitsValue(RemoveCommas(whole) + frac), |frac|))
  {
    var m := AmountMatch(|prefix|, whole, Some(frac));
    PointGroup(|prefix|, whole, frac);
    assert HasDigit(GroupText(m)) by { assert IsDigit(GroupText(m)[0]); }
    assert AllAmountChars(whole);
    assert AllDigits(frac);
    ExtractsWrittenAmount(prefix, whole, Some(frac), "");
  }

  lemma ExampleDigits(whole: string, frac: string)
    requires whole == "1,234" && frac == "56"
    ensures AllDigits(RemoveCommas(whole) + frac)
    ensures DigitsValue(RemoveCommas(whole) + frac) == 123456
  {
    ExampleStripped(whole);
    assert RemoveCommas(whole) + frac == "123456";
    SixDigits(RemoveCommas(whole) + frac);
  }

  lemma SixDigits(t: string)
    requires t == "123456"
    ensures AllDigits(t) && DigitsValue(t) == 123456
  {
    var t1, t2, t3, t4, t5 := t[..1], t[..2], t[..3], t[..4], t[..5];
    assert t1 == [] + [t[0]];
    DigitsSnoc([], t[0]);
    assert t2 == t1 + [t[1]];
    DigitsSnoc(t1, t[1]);
    assert t3 == t2 + [t[2]];
    DigitsSnoc(t2, t[2]);
    assert t4 == t3 + [t[3]];
    DigitsSnoc(t3, t[3]);
    assert t5 == t4 + [t[4]];
    DigitsSnoc(t4, t[4]);
    assert t == t5 + [t[5]];
    DigitsSnoc(t5, t[5]);
  }

  lemma ExampleStripped(whole: string)
    requires whole == "1,234"
    ensures RemoveCommas(whole) == "1234"
  {
    var rest := whole[2..];
    assert AllDigits(rest) && RemoveCommas(rest) == rest;
    assert RemoveCommas(whole[1..]) == rest;
    assert RemoveCommas(whole) == [whole[0]] + rest;
  }

  /** A dollar sign followed only by commas is a match without digits and fails
      as malformed rather than as missing; a dollar sign before a letter is no
      match at all. */
  lemma MalformedExample()
    ensures ExtractAmount("$,,") == Failure(AmountMalformed(""))
    ensures ExtractAmount("$x") == Failure(AmountNotFound)
  {
    OnlyCommasMalformed("$,,");
    LetterNotFound("$x");
  }

  lemma OnlyCommasMalformed(t: string)
    requires t == "$,,"
    ensures ExtractAmount(t) == Failure(AmountMalformed(""))
  {
    var g := t[1..];
    var m := AmountMatch(0, g, None);
    assert "" + "$" + GroupText(m) + "" == t;
    assert !HasDigit(GroupText(m));
    ExtractsWrittenAmount("", g, None, "");
    assert RemoveCommas(g) == "" by { assert g[1..] == [','] && RemoveCommas([',']) == ""; }
  }

  lemma LetterNotFound(t: string)
    requires t == "$x"
    ensures ExtractAmount(t) == Failure(AmountNotFound)
  {
    assert !AmountStartsAt(t, 0);
  }

  /** A match that `ext` cannot extend stays the leftmost match once `ext` is
      appended. */
  lemma MatchSurvivesAppend(text: string, m: AmountMatch, ext: string)
    requires IsLeftmostMatch(text, m)
    requires ext == [] || (!IsAmountChar(ext[0]) && ext[0] != '.')
    ensures IsLeftmostMatch(text + ext, m)
  {
    var t := text + ext;
    assert forall k :: 0 <= k < |text| ==> t[k] == text[k];
    forall k | 0 <= k < m.start ensures !AmountStartsAt(t, k) {
      assert !AmountStartsAt(text, k);
    }
    var w := m.start + 1 + |m.whole|;
    assert t[m.start + 1..w] == text[m.start + 1..w];
    match m.frac {
      case None =>
      case Some(f) =>
        assert t[w + 1..w + 1 + |f|] == text[w + 1..w + 1 + |f|];
    }
  }

  /** Both extractors read the body before the subject: when the body holds an
      amount, that amount is the one found, whatever the subject says. */
  lemma BodyAmountFirst(e: Email)
    requires MatchAmount(e.body).Some?
    ensures MatchAmount(CombinedText(e)) == MatchAmount(e.body)
    ensures ExtractAmount(CombinedText(e)) == ExtractAmount(e.body)
  {
    var m := MatchAmount(e.body).value;
    assert CombinedText(e) == e.body + (" " + e.subject);
    MatchSurvivesAppend(e.body, m, " " + e.subject);
    LeftmostMatchUnique(CombinedText(e), m, MatchAmount(CombinedText(e)).value);
  }

  // ---------------------------------------------------------------------------
  // Client-name extraction (`extract_client_name`)
  // ---------------------------------------------------------------------------

  /** The outcome of `re.search(name_pattern, text, re.IGNORECASE)`: `None` when
      the expression does not match, otherwise `match.groups()`, where a group
      that did not take part in the match is `None`. */
  type NameGroups = Option<seq<Option<string>>>

  /** The regular-expression engine applied to (pattern, text). */
  type NameSearch = (string, string) -> NameGroups

  /** A group that `if group and group.strip()` rejects. */
  predicate IsBlankGroup(g: Option<string>) {
    g.None? || IsBlank(g.value)
  }

  /** Group `i` is the first that `if group and group.strip()` accepts. */
  ghost predicate IsFirstNonBlank(gs: seq<Option<string>>, i: int) {
    0 <= i < |gs| && !IsBlankGroup(gs[i]) && forall j :: 0 <= j < i ==> IsBlankGroup(gs[j])
  }

  /** The position of the first group that is non-blank after trimming. */
  function FirstNonBlank(gs: seq<Option<string>>): (r: Option<nat>)
    ensures r.None? <==> forall i :: 0 <= i < |gs| ==> IsBlankGroup(gs[i])
    ensures r.Some? ==> IsFirstNonBlank(gs, r.value)
  {
    if gs == [] then
      None
    else if !IsBlankGroup(gs[0]) then
      Some(0)
    else
      match FirstNonBlank(gs[1..])
      case None =>
        assert forall i :: 1 <= i < |gs| ==> gs[i] == gs[1..][i - 1];
        None
      case Some(k) =>
        assert forall j :: 1 <= j <= k ==> gs[j] == gs[1..][j - 1];
        Some(k + 1)
  }

  /** `extract_client_name`: the trimmed first group that is non-blank after
      trimming, or exactly "Unknown" when the expression does not match or every
      group is missing or blank. The result is never empty and never has outer
      whitespace. */
  function ExtractClientName(m: NameGroups): (r: string)
    ensures m.None? ==> r == "Unknown"
    ensures m.Some? && (forall i :: 0 <= i < |m.value| ==> IsBlankGroup(m.value[i])) ==> r == "Unknown"
    ensures m.Some? ==> forall i :: IsFirstNonBlank(m.value, i) ==> r == Trim(m.value[i].value)
    ensures r != [] && !IsSpace(r[0]) && !IsSpace(r[|r| - 1])
  {
    match m
    case None => "Unknown"
    case Some(gs) =>
      match FirstNonBlank(gs)
      case None => "Unknown"
      case Some(k) =>
        assert forall i :: IsFirstNonBlank(gs, i) ==> i == k;
        Trim(gs[k].value)
  }

  // ---------------------------------------------------------------------------
  // Composition (`process_email`)
  // ---------------------------------------------------------------------------

  /** What `process_email` reads from a fetched message: the From header ("" when
      absent), the decoded subject and plain-text body, and the Date header as
      parsed by the mail library (`None` when it cannot be parsed). */
  datatype Email = Email(fromHeader: string, subject: string, body: string, date: Option<DateTime>)

  /** `parse_email_date`: the parsed header, or the current time when parsing fails. */
  function ParseEmailDate(parsed: Option<DateTime>, now: DateTime): DateTime {
    parsed.GetOr(now)
  }

  /** The text both extractors read: body first, then a space, then the subject. */
  function CombinedText(e: Email): string {
    e.body + " " + e.subject
  }

  /** `process_email`: `None` for mail no provider claims and for provider mail
      without a well-formed amount; otherwise the record of the identified
      provider, with the input subject, the amount and name read from the
      combined text, the parsed date (or now) and now as processing time. */
  function ProcessEmail(e: Email, now: DateTime, search: NameSearch): (r: Option<PaymentRecord>)
    ensures r.Some? <==> IdentifySource(e.fromHeader, e.subject).Some? && ExtractAmount(CombinedText(e)).Success?
    ensures r.Some? ==>
              var s := IdentifySource(e.fromHeader, e.subject).value;
              && r.value.source == s
              && r.value.emailSubject == e.subject
              && r.value.amount == ExtractAmount(CombinedText(e)).value
              && r.value.clientName == ExtractClientName(search(PatternFor(s).namePattern, CombinedText(e)))
              && r.value.date == ParseEmailDate(e.date, now)
              && r.value.processedAt == now
  {
    match IdentifySource(e.fromHeader, e.subject)
    case None => None
    case Some(source) =>
      var pattern := PatternFor(source);
      var text := CombinedText(e);
      match ExtractAmount(text)
      case Failure(_) => None
      case Success(amount) =>
        var name := ExtractClientName(search(pattern.namePattern, text));
        Some(PaymentRecord(ParseEmailDate(e.date, now), amount, source, name, e.subject, now))
  }

  // ---------------------------------------------------------------------------
  // Senders to poll (`get_supported_senders`)
  // ---------------------------------------------------------------------------

  /** Every provider's sender addresses, concatenated in `order`. */
  function SendersOf(order: seq<PaymentSource>): seq<string> {
    if order == [] then [] else PatternFor(order[0]).fromEmails + SendersOf(order[1..])
  }

  /** `get_supported_senders`: all providers' sender addresses, sorted. */
  function SupportedSenders(): (r: seq<string>)
    ensures Sorted(r)
    ensures multiset(r) == multiset(SendersOf(TableOrder))
  {
    Sort(SendersOf(TableOrder))
  }
}

=== FILE: sorting.dfy ===
/** Python's `sorted` on a list of strings: ascending by code point,
    lexicographically, modelled as an insertion sort. */
module Sorting {

  /** `a <= b` for Python strings: the first differing character decides, and a
      proper prefix comes first. */
  predicate LexLe(a: string, b: string)
    decreases |a|
  {
    if |a| == 0 then true
    else if |b| == 0 then false
    else if a[0] != b[0] then a[0] < b[0]
    else LexLe(a[1..], b[1..])
  }

  lemma {:induction false} LexLeTotal(a: string, b: string)
    ensures LexLe(a, b) || LexLe(b, a)
    decreases |a|
  {
    if |a| > 0 && |b| > 0 && a[0] == b[0] {
      LexLeTotal(a[1..], b[1..]);
    }
  }

  lemma {:induction false} LexLeTransitive(a: string, b: string, c: string)
    requires LexLe(a, b) && LexLe(b, c)
    ensures LexLe(a, c)
    decreases |a|
  {
    if |a| > 0 && |b| > 0 && |c| > 0 && a[0] == b[0] && b[0] == c[0] {
      LexLeTransitive(a[1..], b[1..], c[1..]);
    }
  }

  lemma {:induction false} LexLeAntisymmetric(a: string, b: string)
    requires LexLe(a, b) && LexLe(b, a)
    ensures a == b
    decreases |a|
  {
    if |a| > 0 && |b| > 0 {
      LexLeAntisymmetric(a[1..], b[1..]);
      assert a == [a[0]] + a[1..] && b == [b[0]] + b[1..];
    }
  }

  /** Ascending order, every pair of positions compared. */
  ghost predicate Sorted(s: seq<string>) {
    forall i, j :: 0 <= i < j < |s| ==> LexLe(s[i], s[j])
  }

  /** Inserting `x` into a sorted list keeps it sorted and adds exactly `x`. */
  function Insert(x: string, s: seq<string>): (r: seq<string>)
    requires Sorted(s)
    ensures Sorted(r)
    ensures multiset(r) == multiset(s) + multiset{x}
  {
    if s == [] then
      [x]
    else if LexLe(x, s[0]) then
      forall j | 0 <= j < |s| ensures LexLe(x, s[j]) {
        if j > 0 { LexLeTransitive(x, s[0], s[j]); }
      }
      assert s == [s[0]] + s[1..];
      [x] + s
    else
      var rest := Insert(x, s[1..]);
      LexLeTotal(x, s[0]);
      assert s == [s[0]] + s[1..];
      forall j | 0 <= j < |rest| ensures LexLe(s[0], rest[j]) {
        assert rest[j] in multiset(rest);
        if rest[j] != x {
          assert rest[j] in multiset(s[1..]);
          var k :| 0 <= k < |s[1..]| && s[1..][k] == rest[j];
          assert s[k + 1] == rest[j];
        }
      }
      [s[0]] + rest
  }

  /** `sorted(s)`: an ascending permutation of `s`. */
  function Sort(s: seq<string>): (r: seq<string>)
    ensures Sorted(r)
    ensures multiset(r) == multiset(s)
  {
    if s == [] then
      []
    else
      assert s == [s[0]] + s[1..];
      Insert(s[0], Sort(s[1..]))
  }

  /** Two sorted permutations of the same strings start with the same string. */
  lemma SameHead(a: seq<string>, b: seq<string>)
    requires Sorted(a) && Sorted(b) && a != []
    requires multiset(a) == multiset(b)
    ensures b != [] && a[0] == b[0]
  {
    assert a[0] in multiset(b);
    assert b[0] in multiset(a);
    var i :| 0 <= i < |b| && b[i] == a[0];
    var k :| 0 <= k < |a| && a[k] == b[0];
    LexLeTotal(a[0], a[0]);
    assert LexLe(b[0], a[0]) by {
      if i > 0 { assert LexLe(b[0], b[i]); }
    }
    assert LexLe(a[0], b[0]) by {
      if k > 0 { assert LexLe(a[0], a[k]); }
    }
    LexLeAntisymmetric(a[0], b[0]);
  }

  lemma SortedTail(a: seq<string>)
    requires Sorted(a) && a != []
    ensures Sorted(a[1..]) && multiset(a[1..]) == multiset(a) - multiset{a[0]}
  {
    assert a == [a[0]] + a[1..];
  }

  /** A list has only one ascending arrangement: two sorted permutations of
      the same strings are equal, so `Sort` is fully determined by its contract. */
  lemma {:induction false} SortedPermutationUnique(a: seq<string>, b: seq<string>)
    requires Sorted(a) && Sorted(b)
    requires multiset(a) == multiset(b)
    ensures a == b
    decreases |a|
  {
    if a == [] {
      assert |b| == |multiset(b)| == 0;
    } else {
      SameHead(a, b);
      SortedTail(a);
      SortedTail(b);
      SortedPermutationUnique(a[1..], b[1..]);
      assert a == [a[0]] + a[1..] && b == [b[0]] + b[1..];
    }
  }
}

=== FILE: storage.dfy ===
/** `storage/excel_handler.py`: the spreadsheet of payment rows, its
    duplicate check, the append-unless-present save and the summary statistics. */
module Storage {
  import opened Wrappers
  import opened Decimals
  import opened Payment

  /** The spreadsheet file: its data rows when it can be read, or a file that
      `pd.read_excel` fails on (missing, corrupt or locked). */
  datatype StoreFile = Readable(rows: seq<Row>) | Unreadable

  /** `_load_dataframe`: the file's rows, or an empty frame with the six
      columns when reading fails. */
  function Load(f: StoreFile): seq<Row> {
    match f
    case Readable(rows) => rows
    case Unreadable => []
  }

  /** The four cells `record_exists` compares: the day, the amount as a number,
      the provider's string value and the client name. The subject, the time of
      day and the processing time play no part. */
  datatype Key = Key(date: Day, amount: real, source: string, clientName: string)

  function RowKey(row: Row): Key {
    Key(row.date, Value(row.amount), row.source, row.clientName)
  }

  function RecordKey(rec: PaymentRecord): Key {
    Key(rec.date.date, Value(rec.amount), SourceValue(rec.source), rec.clientName)
  }

  /** The row written for a record carries the record's key. */
  lemma RowKeyOfRecord(rec: PaymentRecord)
    ensures RowKey(ToDict(rec)) == RecordKey(rec)
  {
  }

  /** Some row of `rows` has key `k` (the mask's `any()`). */
  function AnyRowHasKey(rows: seq<Row>, k: Key): (r: bool)
    ensures r <==> exists i :: 0 <= i < |rows| && RowKey(rows[i]) == k
  {
    if rows == [] then
      false
    else if RowKey(rows[0]) == k then
      true
    else
      var r := AnyRowHasKey(rows[1..], k);
      assert forall i :: 1 <= i < |rows| ==> rows[i] == rows[1..][i - 1];
      r
  }

  /** `record_exists`: some stored row agrees with the record on day, amount
      value, source and client name. An unreadable file holds nothing. */
  function RecordExists(f: StoreFile, rec: PaymentRecord): (r: bool)
    ensures r <==> exists i :: 0 <= i < |Load(f)| && RowKey(Load(f)[i]) == RecordKey(rec)
    ensures f.Unreadable? ==> !r
  {
    AnyRowHasKey(Load(f), RecordKey(rec))
  }

  /** Why `save_record` raises `StorageError`: the loaded frame could not be
      written back. */
  datatype StorageError = WriteFailed

  /** `save_record`. A record whose key is already stored leaves the file as it
      is; otherwise the loaded rows (none, if the file was unreadable) plus the
      record's row are written back, which fails when the file cannot be
      written. */
  function SaveRecord(f: StoreFile, rec: PaymentRecord, writable: bool): (r: Result<StoreFile, StorageError>)
    ensures r.Failure? <==> !writable && !RecordExists(f, rec)
    ensures RecordExists(f, rec) ==> r == Success(f)
    ensures r.Success? ==> RecordExists(r.value, rec)
    ensures r.Success? ==> Load(f) <= Load(r.value)
    ensures r.Success? ==> |Load(r.value)| == |Load(f)| + (if RecordExists(f, rec) then 0 else 1)
    ensures r.Success? && !RecordExists(f, rec) ==> Load(r.value)[|Load(f)|] == ToDict(rec)
  {
    if RecordExists(f, rec) then
      Success(f)
    else if !writable then
      Failure(WriteFailed)
    else
      var g := Readable(Load(f) + [ToDict(rec)]);
      assert RowKey(Load(g)[|Load(f)|]) == RecordKey(rec);
      Success(g)
  }

  /** Saving the same record twice is the same as saving it once. */
  lemma SaveIdempotent(f: StoreFile, rec: PaymentRecord, writable: bool)
    requires SaveRecord(f, rec, writable).Success?
    ensures SaveRecord(SaveRecord(f, rec, writable).value, rec, writable) == SaveRecord(f, rec, writable)
  {
  }

  /** Two records with the same key are one payment to the store: once either is
      saved, saving the other changes nothing, whatever their subjects, times of
      day, processing times or amount scales ("75" and "75.00"). */
  lemma SameKeyIsDuplicate(f: StoreFile, a: PaymentRecord, b: PaymentRecord, writable: bool)
    requires RecordKey(a) == RecordKey(b)
    requires SaveRecord(f, a, writable).Success?
    ensures SaveRecord(SaveRecord(f, a, writable).value, b, writable) == SaveRecord(f, a, writable)
  {
  }

  /** Records with different keys are both kept, one row each, in saving order. */
  lemma DistinctKeysBothKept(f: StoreFile, a: PaymentRecord, b: PaymentRecord)
    requires RecordKey(a) != RecordKey(b)
    requires !RecordExists(f, a) && !RecordExists(f, b)
    ensures var g := SaveRecord(SaveRecord(f, a, true).value, b, true).value;
            Load(g) == Load(f) + [ToDict(a), ToDict(b)]
  {
    var g1 := SaveRecord(f, a, true).value;
    assert Load(g1) == Load(f) + [ToDict(a)];
    assert !RecordExists(g1, b) by {
      forall i | 0 <= i < |Load(g1)| ensures RowKey(Load(g1)[i]) != RecordKey(b) {
        if i < |Load(f)| { assert Load(g1)[i] == Load(f)[i]; }
      }
    }
  }

  /** An unreadable file counts as empty, so the first successful save replaces
      whatever it held with a single row. */
  lemma UnreadableFileReplaced(rec: PaymentRecord)
    ensures SaveRecord(Unreadable, rec, true) == Success(Readable([ToDict(rec)]))
  {
    assert Load(Unreadable) + [ToDict(rec)] == [ToDict(rec)];
  }

  // ---------------------------------------------------------------------------
  // Summary statistics (`get_summary_stats`)
  // ---------------------------------------------------------------------------

  /** The statistics of a non-empty store. */
  datatype Detail = Detail(
    average: real,
    maxAmount: real,
    minAmount: real,
    uniqueClients: nat,
    bySource: map<string, nat>)

  /** `get_summary_stats`: the count and total always; the rest only when the
      store holds a row. */
  datatype Summary = Summary(totalRecords: nat, totalAmount: real, detail: Option<Detail>)

  /** The sum of the rows' amount values. */
  function Total(rows: seq<Row>): real {
    if rows == [] then 0.0 else Total(rows[..|rows| - 1]) + Value(rows[|rows| - 1].amount)
  }

  /** The largest amount value, one that some row holds. */
  function MaxAmount(rows: seq<Row>): (m: real)
    requires rows != []
    ensures forall i :: 0 <= i < |rows| ==> Value(rows[i].amount) <= m
    ensures exists i :: 0 <= i < |rows| && Value(rows[i].amount) == m
  {
    var last := Value(rows[|rows| - 1].amount);
    if |rows| == 1 then
      last
    else
      var init := rows[..|rows| - 1];
      var m := MaxAmount(init);
      assert forall i :: 0 <= i < |init| ==> init[i] == rows[i];
      if last > m then last else m
  }

  /** The smallest amount value, one that some row holds. */
  function MinAmount(rows: seq<Row>): (m: real)
    requires rows != []
    ensures forall i :: 0 <= i < |rows| ==> m <= Value(rows[i].amount)
    ensures exists i :: 0 <= i < |rows| && Value(rows[i].amount) == m
  {
    var last := Value(rows[|rows| - 1].amount);
    if |rows| == 1 then
      last
    else
      var init := rows[..|rows| - 1];
      var m := MinAmount(init);
      assert forall i :: 0 <= i < |init| ==> init[i] == rows[i];
      if last < m then last else m
  }

  /** The distinct client names (`nunique` of the column). */
  function ClientNames(rows: seq<Row>): (r: set<string>)
    ensures forall n :: n in r <==> exists i :: 0 <= i < |rows| && rows[i].clientName == n
  {
    if rows == [] then
      {}
    else
      var init := rows[..|rows| - 1];
      var r := ClientNames(init) + {rows[|rows| - 1].clientName};
      assert forall i :: 0 <= i < |init| ==> init[i] == rows[i];
      r
  }

  /** How many rows name provider string `s`. */
  function CountSource(rows: seq<Row>, s: string): nat {
    if rows == [] then 0
    else CountSource(rows[..|rows| - 1], s) + (if rows[|rows| - 1].source == s then 1 else 0)
  }

  /** `value_counts()` of the Source column: each source present, with the
      number of rows naming it. */
  function SourceCounts(rows: seq<Row>): (r: map<string, nat>)
    ensures forall s :: s in r <==> exists i :: 0 <= i < |rows| && rows[i].source == s
    ensures forall s :: s in r ==> r[s] == CountSource(rows, s) && r[s] >= 1
  {
    if rows == [] then
      map[]
    else
      var init := rows[..|rows| - 1];
      var m := SourceCounts(init);
      var s := rows[|rows| - 1].source;
      assert forall i :: 0 <= i < |init| ==> init[i] == rows[i];
      assert s !in m ==> CountSource(init, s) == 0 by {
        if s !in m { NoRowNoCount(init, s); }
      }
      m[s := (if s in m then m[s] else 0) + 1]
  }

  /** A source no row names is counted zero times. */
  lemma {:induction false} NoRowNoCount(rows: seq<Row>, s: string)
    requires forall i :: 0 <= i < |rows| ==> rows[i].source != s
    ensures CountSource(rows, s) == 0
  {
    if rows != [] {
      var init := rows[..|rows| - 1];
      assert forall i :: 0 <= i < |init| ==> init[i] == rows[i];
      NoRowNoCount(init, s);
    }
  }

  /** `get_summary_stats` on the loaded rows. An empty store reports only a zero
      count and total; otherwise the mean times the count is the total, the
      maximum and minimum bound every amount and are attained, the unique
      client count is the number of distinct names, and each source present is
      counted by its rows. */
  function GetSummaryStats(f: StoreFile): (r: Summary)
    ensures r.totalRecords == |Load(f)|
    ensures r.totalAmount == Total(Load(f))
    ensures r.detail.None? <==> Load(f) == []
    ensures r.detail.Some? ==> r.totalRecords > 0 && r.detail.value.average == Mean(r.totalAmount, r.totalRecords)
    ensures r.detail.Some? ==> forall i :: 0 <= i < |Load(f)| ==>
              r.detail.value.minAmount <= Value(Load(f)[i].amount) <= r.detail.value.maxAmount
    ensures r.detail.Some? ==> exists i :: 0 <= i < |Load(f)| && Value(Load(f)[i].amount) == r.detail.value.maxAmount
    ensures r.detail.Some? ==> exists i :: 0 <= i < |Load(f)| && Value(Load(f)[i].amount) == r.detail.value.minAmount
    ensures r.detail.Some? ==> r.detail.value.uniqueClients == |ClientNames(Load(f))|
    ensures r.detail.Some? ==> forall s :: s in r.detail.value.bySource <==> exists i :: 0 <= i < |Load(f)| && Load(f)[i].source == s
    ensures r.detail.Some? ==> forall s :: s in r.detail.value.bySource ==> r.detail.value.bySource[s] == CountSource(Load(f), s)
  {
    var rows := Load(f);
    if rows == [] then
      Summary(0, 0.0, None)
    else
      var total := Total(rows);
      Summary(|rows|, total,
              Some(Detail(Mean(total, |rows|), MaxAmount(rows), MinAmount(rows), |ClientNames(rows)|, SourceCounts(rows))))
  }

  /** The arithmetic mean of `n` values summing to `total`. */
  function Mean(total: real, n: nat): (m: real)
    requires n > 0
    ensures m * (n as real) == total
  {
    total / (n as real)
  }

  /** Appending one row adds one to the count and its amount to the total. */
  lemma TotalAppend(rows: seq<Row>, row: Row)
    ensures Total(rows + [row]) == Total(rows) + Value(row.amount)
  {
    assert (rows + [row])[..|rows|] == rows;
  }

  /** Saving a new record raises the count by one and the total by exactly the
      record's amount; saving a duplicate changes neither. */
  lemma SaveUpdatesSummary(f: StoreFile, rec: PaymentRecord, writable: bool)
    requires SaveRecord(f, rec, writable).Success?
    ensures var before, after := GetSummaryStats(f), GetSummaryStats(SaveRecord(f, rec, writable).value);
            && (RecordExists(f, rec) ==> after == before)
            && (!RecordExists(f, rec) ==>
                  after.totalRecords == before.totalRecords + 1 && after.totalAmount == before.totalAmount + Value(rec.amount))
  {
    if !RecordExists(f, rec) {
      TotalAppend(Load(f), ToDict(rec));
    }
  }

  /** The sum of `m`'s values over the keys `ks`. */
  ghost function SumOn(m: map<string, nat>, ks: set<string>): nat
    requires ks <= m.Keys
    decreases ks
  {
    if ks == {} then 0 else var x :| x in ks; m[x] + SumOn(m, ks - {x})
  }

  /** The number of rows whose source is one of `ks`. */
  function CountIn(rows: seq<Row>, ks: set<string>): nat {
    if rows == [] then 0
    else CountIn(rows[..|rows| - 1], ks) + (if rows[|rows| - 1].source in ks then 1 else 0)
  }

  lemma {:induction false} CountInSplit(rows: seq<Row>, ks: set<string>, x: string)
    requires x in ks
    ensures CountIn(rows, ks) == CountSource(rows, x) + CountIn(rows, ks - {x})
  {
    if rows != [] {
      CountInSplit(rows[..|rows| - 1], ks, x);
    }
  }

  lemma {:induction false} SumOnCounts(rows: seq<Row>, m: map<string, nat>, ks: set<string>)
    requires ks <= m.Keys
    requires forall s :: s in m ==> m[s] == CountSource(rows, s)
    ensures SumOn(m, ks) == CountIn(rows, ks)
    decreases ks
  {
    if ks == {} {
      NoSourceNoCount(rows, ks);
    } else {
      var x :| x in ks && SumOn(m, ks) == m[x] + SumOn(m, ks - {x});
      SumOnCounts(rows, m, ks - {x});
      CountInSplit(rows, ks, x);
    }
  }

  lemma {:induction false} NoSourceNoCount(rows: seq<Row>, ks: set<string>)
    requires ks == {}
    ensures CountIn(rows, ks) == 0
  {
    if rows != [] {
      NoSourceNoCount(rows[..|rows| - 1], ks);
    }
  }

  lemma {:induction false} CountInAll(rows: seq<Row>, ks: set<string>)
    requires forall i :: 0 <= i < |rows| ==> rows[i].source in ks
    ensures CountIn(rows, ks) == |rows|
  {
    if rows != [] {
      var init := rows[..|rows| - 1];
      assert forall i :: 0 <= i < |init| ==> init[i] == rows[i];
      CountInAll(init, ks);
    }
  }

  /** The per-source counts add up to the number of records: every row is
      counted under exactly one source. */
  lemma BySourceSumsToTotal(f: StoreFile)
    ensures var r := GetSummaryStats(f);
            r.detail.Some? ==> SumOn(r.detail.value.bySource, r.detail.value.bySource.Keys) == r.totalRecords
  {
    var rows := Load(f);
    if rows != [] {
      SourceCountsSum(rows);
    }
  }

  lemma SourceCountsSum(rows: seq<Row>)
    ensures SumOn(SourceCounts(rows), SourceCounts(rows).Keys) == |rows|
  {
    var m := SourceCounts(rows);
    SumOnCounts(rows, m, m.Keys);
    forall i | 0 <= i < |rows| ensures rows[i].source in m.Keys {
    }
    CountInAll(rows, m.Keys);
  }
}

=== FILE: text.dfy ===
/** The handful of Python string operations the tracker relies on:
    `str.lower`, `str.isspace`, `str.strip` and the substring test `needle in hay`. */
module Text {

  /** `c.lower()` on the ASCII letters; every other character is left as it is. */
  function LowerChar(c: char): char {
    if 'A' <= c <= 'Z' then (c as int + 32) as char else c
  }

  /** `c.upper()` on the ASCII letters. */
  function UpperChar(c: char): char {
    if 'a' <= c <= 'z' then (c as int - 32) as char else c
  }

  function Lower(s: string): string {
    seq(|s|, i requires 0 <= i < |s| => LowerChar(s[i]))
  }

  function Upper(s: string): string {
    seq(|s|, i requires 0 <= i < |s| => UpperChar(s[i]))
  }

  /** Two strings that differ only in the letter case of some characters. */
  ghost predicate CaseVariants(a: string, b: string) {
    |a| == |b| && forall i :: 0 <= i < |a| ==> LowerChar(a[i]) == LowerChar(b[i])
  }

  /** Lower-casing forgets exactly the letter case: two strings lower-case to the
      same text iff they are case variants of one another. */
  lemma LowerIdentifiesCaseVariants(a: string, b: string)
    ensures Lower(a) == Lower(b) <==> CaseVariants(a, b)
  {
    if CaseVariants(a, b) {
      assert forall i :: 0 <= i < |a| ==> Lower(a)[i] == Lower(b)[i];
    }
    if Lower(a) == Lower(b) {
      assert forall i :: 0 <= i < |a| ==> LowerChar(a[i]) == Lower(a)[i] == Lower(b)[i] == LowerChar(b[i]);
    }
  }

  /** Upper-casing and lower-casing a string are case variants of it. */
  lemma CaseChangesAreVariants(s: string)
    ensures CaseVariants(s, Upper(s))
    ensures CaseVariants(s, Lower(s))
  {
  }

  /** `c.isspace()`: the code points Python classifies as whitespace. */
  predicate IsSpace(c: char) {
    || ('\t' <= c <= '\r')
    || ('\U{1C}' <= c <= '\U{1F}')
    || c == ' '
    || c == '\U{85}'
    || c == '\U{A0}'
    || c == '\U{1680}'
    || ('\U{2000}' <= c <= '\U{200A}')
    || c == '\U{2028}'
    || c == '\U{2029}'
    || c == '\U{202F}'
    || c == '\U{205F}'
    || c == '\U{3000}'
  }

  /** A string that is empty or made only of whitespace, i.e. `not s.strip()`. */
  predicate IsBlank(s: string) {
    forall i :: 0 <= i < |s| ==> IsSpace(s[i])
  }

  /** The first index at or after `k` that is not whitespace (or `|s|`). */
  function SkipSpaces(s: string, k: nat): (r: nat)
    requires k <= |s|
    ensures k <= r <= |s|
    ensures forall j :: k <= j < r ==> IsSpace(s[j])
    ensures r == |s| || !IsSpace(s[r])
    decreases |s| - k
  {
    if k < |s| && IsSpace(s[k]) then SkipSpaces(s, k + 1) else k
  }

  /** The end of `s[lo..hi]` once trailing whitespace is dropped. */
  function SkipSpacesBack(s: string, lo: nat, hi: nat): (r: nat)
    requires lo <= hi <= |s|
    ensures lo <= r <= hi
    ensures forall j :: r <= j < hi ==> IsSpace(s[j])
    ensures r == lo || !IsSpace(s[r - 1])
    decreases hi
  {
    if lo < hi && IsSpace(s[hi - 1]) then SkipSpacesBack(s, lo, hi - 1) else hi
  }

  /** `r` is the slice of `s` at `i` and only whitespace lies outside it. */
  ghost predicate StripsTo(s: string, i: int, r: string) {
    && 0 <= i <= |s| - |r|
    && s[i..i + |r|] == r
    && (forall k :: 0 <= k < i ==> IsSpace(s[k]))
    && (forall k :: i + |r| <= k < |s| ==> IsSpace(s[k]))
  }

  /** `s.strip()`: the slice of `s` left after removing leading and trailing
      whitespace. Everything cut away is whitespace; the result is empty exactly
      when `s` is blank, and otherwise starts and ends with a non-space character. */
  function Trim(s: string): (r: string)
    ensures exists i :: StripsTo(s, i, r)
    ensures r == [] <==> IsBlank(s)
    ensures r != [] ==> !IsSpace(r[0]) && !IsSpace(r[|r| - 1])
  {
    var i := SkipSpaces(s, 0);
    var j := SkipSpacesBack(s, i, |s|);
    assert i < |s| ==> j > i;
    assert StripsTo(s, i, s[i..j]);
    s[i..j]
  }

  /** `Trim` removes nothing from a string that already has no outer whitespace,
      so trimming twice is the same as trimming once. */
  lemma TrimIdempotent(s: string)
    ensures Trim(Trim(s)) == Trim(s)
  {
    var t := Trim(s);
    if t != [] {
      assert SkipSpaces(t, 0) == 0;
      assert SkipSpacesBack(t, 0, |t|) == |t|;
    }
  }

  /** `needle` occurs in `hay` starting at position `i`. */
  predicate OccursAt(hay: string, needle: string, i: int) {
    0 <= i && i + |needle| <= |hay| && hay[i..i + |needle|] == needle
  }

  /** Python's `needle in hay` for strings: a contiguous occurrence anywhere.
      The empty string occurs in every string. */
  function Contains(hay: string, needle: string): (r: bool)
    ensures r <==> exists i :: OccursAt(hay, needle, i)
    decreases |hay|
  {
    if |needle| > |hay| then
      false
    else if hay[..|needle|] == needle then
      assert OccursAt(hay, needle, 0);
      true
    else
      var rest := Contains(hay[1..], needle);
      assert rest ==> exists i :: OccursAt(hay, needle, i) by {
        if rest {
          var j :| OccursAt(hay[1..], needle, j);
          assert hay[1..][j..j + |needle|] == hay[j + 1..j + 1 + |needle|];
          assert OccursAt(hay, needle, j + 1);
        }
      }
      assert (exists i :: OccursAt(hay, needle, i)) ==> rest by {
        if exists i :: OccursAt(hay, needle, i) {
          var i :| OccursAt(hay, needle, i);
          assert i != 0;
          assert hay[1..][i - 1..i - 1 + |needle|] == hay[i..i + |needle|];
          assert OccursAt(hay[1..], needle, i - 1);
        }
      }
      rest
  }

  /** Some string of `needles` occurs in `hay`. */
  ghost predicate SomeOccurs(hay: string, needles: seq<string>) {
    exists k, i :: 0 <= k < |needles| && OccursAt(hay, needles[k], i)
  }

  /** `any(n in hay for n in needles)`, scanning `needles` in order. */
  function AnyOccurs(hay: string, needles: seq<string>): (r: bool)
    ensures r <==> SomeOccurs(hay, needles)
  {
    if needles == [] then
      false
    else if Contains(hay, needles[0]) then
      var i :| OccursAt(hay, needles[0], i);
      assert OccursAt(hay, needles[0 as nat], i);
      true
    else
      var rest := AnyOccurs(hay, needles[1..]);
      assert rest ==> SomeOccurs(hay, needles) by {
        if rest {
          var k, i :| 0 <= k < |needles[1..]| && OccursAt(hay, needles[1..][k], i);
          assert OccursAt(hay, needles[k + 1], i);
        }
      }
      assert SomeOccurs(hay, needles) ==> rest by {
        if SomeOccurs(hay, needles) {
          var k, i :| 0 <= k < |needles| && OccursAt(hay, needles[k], i);
          assert k != 0;
          assert OccursAt(hay, needles[1..][k - 1], i);
        }
      }
      rest
  }
}

=== FILE: tracker.dfy ===
/** `core/tracker.py`: one polling cycle over the supported senders, with the
    in-memory set of processed message ids and the spreadsheet as its state. */
module Tracker {
  import opened Wrappers
  import opened Payment
  import opened Processor
  import opened Storage

  /** What fetching and decoding one message gives: the message; `Absent`
      when `fetch_email` gives `None` (a failed fetch) or a message object that
      is false, such as one with no headers, both skipped without marking by
      `if not email_message`; or an exception (a connection failure, or
      an undecodable subject or body) that ends the sender's loop. */
  datatype Fetch = Fetched(email: Email) | Absent | Broken

  /** The mailbox as the tracker sees it. `search` is `None` when the search
      raises, and `Some` of the ids otherwise (empty when the status is not OK). */
  datatype Mailbox = Mailbox(search: string -> Option<seq<string>>, fetch: string -> Fetch)

  /** Everything a cycle depends on besides its state: the mailbox, the name
      expression engine, whether the spreadsheet can be written, and the clock
      reading used for `datetime.now()`. */
  datatype Env = Env(mail: Mailbox, names: NameSearch, writable: bool, now: DateTime)

  /** The tracker's state: `processed_emails` and the spreadsheet file. */
  datatype State = State(seen: set<string>, store: StoreFile)

  /** What happened to one message id, or to one sender's search. */
  datatype Event =
    | Skipped(id: string)                           // already processed
    | Unfetched(id: string)                         // `fetch_email` gave `None`
    | NoPayment(id: string)                         // processed, no record
    | Saved(id: string, rec: PaymentRecord)         // `save_record` returned
    | SaveFailed(id: string, rec: PaymentRecord)    // `StorageError`
    | Aborted(id: string)                           // exception: sender abandoned
    | SearchFailed(sender: string)                  // the search raised
  {
    /** The id is added to `processed_emails`. */
    predicate Marks() {
      NoPayment? || Saved? || SaveFailed?
    }
  }

  /** The outcome of processing a list of ids or of senders. */
  datatype Pass = Pass(state: State, count: nat, trace: seq<Event>)

  /** The ids a trace adds to the processed set. */
  function Marked(t: seq<Event>): set<string> {
    if t == [] then {} else (if t[0].Marks() then {t[0].id} else {}) + Marked(t[1..])
  }

  /** The number of records a trace counts as processed. */
  function SavedCount(t: seq<Event>): nat {
    if t == [] then 0 else (if t[0].Saved? then 1 else 0) + SavedCount(t[1..])
  }

  /** Every id a trace marks is new: not in `seen` and not marked earlier. */
  ghost predicate MarksFresh(seen: set<string>, t: seq<Event>)
    decreases |t|
  {
    t == [] || ((t[0].Marks() ==> t[0].id !in seen) && MarksFresh(seen + Marked(t[..1]), t[1..]))
  }

  /** An event skips its id exactly when the id was processed already, before
      the pass or by an earlier event of it: every other id is fetched. */
  ghost predicate SkipsExact(seen: set<string>, t: seq<Event>)
    decreases |t|
  {
    t == [] || ((!t[0].SearchFailed? ==> (t[0].Skipped? <==> t[0].id in seen)) && SkipsExact(seen + Marked(t[..1]), t[1..]))
  }

  /** The rows a trace appends to a spreadsheet holding `rows`: the row of
      each saved record whose key is not there yet, in trace order. */
  function Appended(rows: seq<Row>, t: seq<Event>): seq<Row>
    decreases |t|
  {
    if t == [] then []
    else if t[0].Saved? && !RecordExists(Readable(rows), t[0].rec) then
      [ToDict(t[0].rec)] + Appended(rows + [ToDict(t[0].rec)], t[1..])
    else
      Appended(rows, t[1..])
  }

  /** How a pass with trace `t` takes the spreadsheet from `f` to `g`: an
      unwritable file is never changed, a record reported as failing to save
      is one the file does not hold (so a duplicate is never reported as a
      failure), and the file afterwards is the old file when nothing new was
      saved, and otherwise holds the old rows followed by exactly the rows of
      the saved records that were new. */
  ghost predicate StoreChanges(env: Env, f: StoreFile, g: StoreFile, t: seq<Event>) {
    && (!env.writable ==> g == f)
    && (forall i :: 0 <= i < |t| && t[i].SaveFailed? ==> !RecordExists(g, t[i].rec))
    && g == AppendRows(f, Appended(Load(f), t))
  }

  /** The file with `rows` written after its loaded rows; the file itself when
      there is nothing to write. */
  function AppendRows(f: StoreFile, rows: seq<Row>): StoreFile {
    if rows == [] then f else Readable(Load(f) + rows)
  }

  /** Each event agrees with the mailbox and the processor: an id is marked
      only after its message was fetched, an unfetched id is one `fetch_email`
      gave `None` for, an abandoning id is one whose handling raised, a search
      failure is a search that raised, and the record saved is the one
      `process_email` yields for it. */
  ghost predicate Faithful(env: Env, e: Event) {
    && (e.Marks() ==> env.mail.fetch(e.id).Fetched?)
    && (e.Unfetched? ==> env.mail.fetch(e.id).Absent?)
    && (e.Aborted? ==> env.mail.fetch(e.id).Broken?)
    && (e.SearchFailed? ==> env.mail.search(e.sender).None?)
    && (e.NoPayment? ==> ProcessEmail(env.mail.fetch(e.id).email, env.now, env.names).None?)
    && (e.Saved? || e.SaveFailed? ==> ProcessEmail(env.mail.fetch(e.id).email, env.now, env.names) == Some(e.rec))
    && (e.SaveFailed? ==> !env.writable)
  }

  /** What a pass guarantees about its starting state `st`. */
  ghost predicate Accounts(env: Env, st: State, r: Pass) {
    && r.state.seen == st.seen + Marked(r.trace)
    && r.count == SavedCount(r.trace)
    && Load(st.store) <= Load(r.state.store)
    && MarksFresh(st.seen, r.trace)
    && AllFaithful(env, r.trace)
    && AllStored(r.state.store, r.trace)
  }

  /** Every event of the trace is faithful. */
  ghost predicate AllFaithful(env: Env, t: seq<Event>) {
    forall i :: 0 <= i < |t| ==> Faithful(env, t[i])
  }

  /** Every record the trace reports as saved is present in `f`. */
  ghost predicate AllStored(f: StoreFile, t: seq<Event>) {
    forall i :: 0 <= i < |t| && t[i].Saved? ==> RecordExists(f, t[i].rec)
  }

  lemma AllFaithfulConcat(env: Env, a: seq<Event>, b: seq<Event>)
    requires AllFaithful(env, a) && AllFaithful(env, b)
    ensures AllFaithful(env, a + b)
  {
    var t := a + b;
    forall i | 0 <= i < |t| ensures Faithful(env, t[i]) {
      if i >= |a| { assert t[i] == b[i - |a|]; } else { assert t[i] == a[i]; }
    }
  }

  lemma AllStoredConcat(f: StoreFile, g: StoreFile, a: seq<Event>, b: seq<Event>)
    requires Load(f) <= Load(g)
    requires AllStored(f, a) && AllStored(g, b)
    ensures AllStored(g, a + b)
  {
    var t := a + b;
    forall i | 0 <= i < |t| && t[i].Saved? ensures RecordExists(g, t[i].rec) {
      if i < |a| {
        assert t[i] == a[i];
        ExistsPreserved(f, g, t[i].rec);
      } else {
        assert t[i] == b[i - |a|];
      }
    }
  }

  /** One message id (the body of the inner loop): an id processed already is
      skipped without a fetch; for a new id, a failed fetch leaves it for the
      next cycle, a raising fetch abandons the sender, and a fetched message
      marks the id whether or not a payment was found or saved. */
  function StepId(env: Env, st: State, id: string): (r: (State, Event))
    ensures id in st.seen ==> r == (st, Skipped(id))
    ensures id !in st.seen ==> (env.mail.fetch(id).Absent? <==> r.1.Unfetched?)
    ensures id !in st.seen ==> (env.mail.fetch(id).Broken? <==> r.1.Aborted?)
    ensures id !in st.seen ==> (env.mail.fetch(id).Fetched? <==> r.1.Marks())
    ensures r.1.Unfetched? || r.1.Aborted? ==> r.0 == st
    ensures !r.1.SearchFailed? && r.1.id == id
    ensures r.1.Marks() ==> id !in st.seen && r.0.seen == st.seen + {id}
    ensures !r.1.Marks() ==> r.0.seen == st.seen
    ensures !r.1.Saved? ==> r.0.store == st.store
    ensures r.1.Saved? ==> SaveRecord(st.store, r.1.rec, env.writable) == Success(r.0.store)
    ensures r.1.SaveFailed? ==> SaveRecord(st.store, r.1.rec, env.writable).Failure?
  {
    if id in st.seen then
      (st, Skipped(id))
    else
      match env.mail.fetch(id)
      case Absent => (st, Unfetched(id))
      case Broken => (st, Aborted(id))
      case Fetched(e) =>
        match ProcessEmail(e, env.now, env.names)
        case None => (State(st.seen + {id}, st.store), NoPayment(id))
        case Some(rec) =>
          match SaveRecord(st.store, rec, env.writable)
          case Success(g) => (State(st.seen + {id}, g), Saved(id, rec))
          case Failure(_) => (State(st.seen + {id}, st.store), SaveFailed(id, rec))
  }

  /** The shape of one sender's pass over `ids`: one event per id, in order,
      ending right after the first id whose handling raised, if any. */
  ghost predicate IdsShape(ids: seq<string>, t: seq<Event>) {
    && |t| <= |ids|
    && (forall i :: 0 <= i < |t| ==> !t[i].SearchFailed? && t[i].id == ids[i])
    && (forall i :: 0 <= i < |t| - 1 ==> !t[i].Aborted?)
    && (|t| < |ids| ==> t != [] && t[|t| - 1].Aborted?)
  }

  /** The inner loop over one sender's ids; an exception abandons the rest.
      Afterwards the ids are quiet: every id up to the first one whose fetch
      raises was processed already, has been processed now, or cannot be
      fetched. */
  function ProcessIds(env: Env, st: State, ids: seq<string>): (r: Pass)
    ensures Accounts(env, st, r)
    ensures SkipsExact(st.seen, r.trace)
    ensures StoreChanges(env, st.store, r.state.store, r.trace)
    ensures IdsShape(ids, r.trace)
    ensures Quiet(env, r.state.seen, ids)
    decreases |ids|
  {
    if ids == [] then
      Pass(st, 0, [])
    else
      var (st1, ev) := StepId(env, st, ids[0]);
      StepFacts(env, st, ids[0]);
      StepStoreFacts(env, st, ids[0]);
      if ev.Aborted? then
        assert IdsShape(ids, [ev]);
        StepAlone(env, st, st1, ev);
        Pass(st1, 0, [ev])
      else
        var rest := ProcessIds(env, st1, ids[1..]);
        var r := Pass(rest.state, (if ev.Saved? then 1 else 0) + rest.count, [ev] + rest.trace);
        StepAccounts(env, st, st1, ev, rest);
        StepExact(env, st, st1, ev, rest);
        IdsShapeCons(ids, ev, rest.trace);
        IdsQuietStep(env, st.seen, st1.seen, rest.state.seen, ids);
        r
  }

  lemma IdsShapeCons(ids: seq<string>, ev: Event, t: seq<Event>)
    requires ids != [] && !ev.SearchFailed? && !ev.Aborted? && ev.id == ids[0]
    requires IdsShape(ids[1..], t)
    ensures IdsShape(ids, [ev] + t)
  {
    var u := [ev] + t;
    forall i | 0 < i < |u| ensures u[i] == t[i - 1] && ids[i] == ids[1..][i - 1] {
    }
  }

  /** A step that did not abandon the sender, followed by a pass that leaves
      the remaining ids quiet, leaves all of them quiet. */
  lemma IdsQuietStep(env: Env, seen: set<string>, seen1: set<string>, after: set<string>, ids: seq<string>)
    requires ids != [] && seen <= seen1 <= after
    requires ids[0] !in seen ==> !env.mail.fetch(ids[0]).Broken?
    requires ids[0] !in seen && env.mail.fetch(ids[0]).Fetched? ==> ids[0] in seen1
    requires Quiet(env, after, ids[1..])
    ensures Quiet(env, after, ids)
  {
  }

  /** One step marks its id only when the message was fetched and processed,
      and keeps every stored row. */
  lemma StepFacts(env: Env, st: State, id: string)
    ensures !StepId(env, st, id).1.SearchFailed? && StepId(env, st, id).1.id == id
    ensures StepKeeps(env, st, StepId(env, st, id).0, StepId(env, st, id).1)
  {
    if id !in st.seen && env.mail.fetch(id).Fetched? {
      FetchedStepKeeps(env, st, id, env.mail.fetch(id).email);
    }
  }

  /** `StepFacts` for a message that is new and fetched. */
  lemma FetchedStepKeeps(env: Env, st: State, id: string, e: Email)
    requires id !in st.seen && env.mail.fetch(id) == Fetched(e)
    ensures StepId(env, st, id).1.id == id
    ensures StepKeeps(env, st, StepId(env, st, id).0, StepId(env, st, id).1)
  {
    var p := ProcessEmail(e, env.now, env.names);
    if p.Some? {
      SaveStepKeeps(env, st, id, e, p.value);
    }
  }

  /** `StepFacts` for a message that yields the record `rec`. */
  lemma SaveStepKeeps(env: Env, st: State, id: string, e: Email, rec: PaymentRecord)
    requires id !in st.seen && env.mail.fetch(id) == Fetched(e)
    requires ProcessEmail(e, env.now, env.names) == Some(rec)
    ensures StepId(env, st, id).1.id == id
    ensures StepKeeps(env, st, StepId(env, st, id).0, StepId(env, st, id).1)
  {
    var saved := SaveRecord(st.store, rec, env.writable);
    if saved.Success? {
      assert StepId(env, st, id) == (State(st.seen + {id}, saved.value), Saved(id, rec));
    } else {
      assert StepId(env, st, id) == (State(st.seen + {id}, st.store), SaveFailed(id, rec));
    }
  }

  /** The facts `StepFacts` gives about a step from `st` to `st1` by `ev`. */
  ghost predicate StepKeeps(env: Env, st: State, st1: State, ev: Event) {
    && !ev.SearchFailed?
    && st1.seen == st.seen + (if ev.Marks() then {ev.id} else {})
    && (ev.Marks() ==> ev.id !in st.seen)
    && Faithful(env, ev)
    && Load(st.store) <= Load(st1.store)
    && (ev.Saved? ==> RecordExists(st1.store, ev.rec))
  }

  /** The skipping and spreadsheet facts of a step from `st` to `st1` by `ev`. */
  ghost predicate StepStore(env: Env, st: State, st1: State, ev: Event) {
    && !ev.SearchFailed?
    && (ev.Skipped? <==> ev.id in st.seen)
    && (!env.writable ==> st1.store == st.store)
    && (ev.SaveFailed? ==> !RecordExists(st1.store, ev.rec))
    && st1.store == AppendRows(st.store, if ev.Saved? && !RecordExists(st.store, ev.rec) then [ToDict(ev.rec)] else [])
  }

  /** A step skips only an id processed already, leaves an unwritable file
      alone, reports a failed save only for a record the file lacks, and adds
      at most the row of the record it saved. */
  lemma StepStoreFacts(env: Env, st: State, id: string)
    ensures StepStore(env, st, StepId(env, st, id).0, StepId(env, st, id).1)
  {
    var (st1, ev) := StepId(env, st, id);
    if ev.Saved? {
      assert SaveRecord(st.store, ev.rec, env.writable) == Success(st1.store);
      if !RecordExists(st.store, ev.rec) {
        assert st1.store == Readable(Load(st.store) + [ToDict(ev.rec)]);
      }
    } else if ev.SaveFailed? {
      assert SaveRecord(st.store, ev.rec, env.writable).Failure?;
    }
  }

  /** A single step, as a pass of its own, skips exactly and changes the
      spreadsheet only by its own save. */
  lemma StepAlone(env: Env, st: State, st1: State, ev: Event)
    requires StepStore(env, st, st1, ev)
    ensures SkipsExact(st.seen, [ev])
    ensures StoreChanges(env, st.store, st1.store, [ev])
  {
    assert [ev][1..] == [];
    SameRecordExists(st.store, ev);
  }

  /** Whether a record is stored depends only on the loaded rows. */
  lemma SameRecordExists(f: StoreFile, ev: Event)
    requires !ev.SearchFailed?
    ensures ev.Saved? ==> (RecordExists(f, ev.rec) <==> RecordExists(Readable(Load(f)), ev.rec))
  {
  }

  /** A step followed by a pass skips exactly and changes the spreadsheet only
      by their saves. */
  lemma StepExact(env: Env, st: State, st1: State, ev: Event, rest: Pass)
    requires StepKeeps(env, st, st1, ev) && StepStore(env, st, st1, ev)
    requires Accounts(env, st1, rest)
    requires SkipsExact(st1.seen, rest.trace)
    requires StoreChanges(env, st1.store, rest.state.store, rest.trace)
    ensures SkipsExact(st.seen, [ev] + rest.trace)
    ensures StoreChanges(env, st.store, rest.state.store, [ev] + rest.trace)
  {
    StepAlone(env, st, st1, ev);
    assert Marked([ev]) == (if ev.Marks() then {ev.id} else {});
    SkipsExactConcat(st.seen, [ev], rest.trace);
    StoreChangesCompose(env, st.store, st1.store, rest.state.store, [ev], rest.trace);
  }

  /** A step followed by a pass accounts for both. */
  lemma StepAccounts(env: Env, st: State, st1: State, ev: Event, rest: Pass)
    requires StepKeeps(env, st, st1, ev)
    requires Accounts(env, st1, rest)
    ensures Accounts(env, st, Pass(rest.state, (if ev.Saved? then 1 else 0) + rest.count, [ev] + rest.trace))
  {
    StepMarks(st, st1, ev, rest);
    StepEvents(env, st1, ev, rest);
  }

  /** The marking and counting half of `StepAccounts`. */
  lemma StepMarks(st: State, st1: State, ev: Event, rest: Pass)
    requires st1.seen == st.seen + (if ev.Marks() then {ev.id} else {})
    requires ev.Marks() ==> ev.id !in st.seen
    requires rest.state.seen == st1.seen + Marked(rest.trace)
    requires rest.count == SavedCount(rest.trace)
    requires MarksFresh(st1.seen, rest.trace)
    ensures rest.state.seen == st.seen + Marked([ev] + rest.trace)
    ensures (if ev.Saved? then 1 else 0) + rest.count == SavedCount([ev] + rest.trace)
    ensures MarksFresh(st.seen, [ev] + rest.trace)
  {
    assert Marked([ev]) == (if ev.Marks() then {ev.id} else {});
    MarkedConcat([ev], rest.trace);
    SavedCountConcat([ev], rest.trace);
    assert SavedCount([ev]) == (if ev.Saved? then 1 else 0);
    assert MarksFresh(st.seen, [ev]) by {
      assert [ev][1..] == [];
    }
    MarksFreshConcat(st.seen, [ev], rest.trace);
  }

  /** The per-event half of `StepAccounts`. */
  lemma StepEvents(env: Env, st1: State, ev: Event, rest: Pass)
    requires Faithful(env, ev) && (ev.Saved? ==> RecordExists(st1.store, ev.rec))
    requires Load(st1.store) <= Load(rest.state.store)
    requires AllFaithful(env, rest.trace) && AllStored(rest.state.store, rest.trace)
    ensures AllFaithful(env, [ev] + rest.trace)
    ensures AllStored(rest.state.store, [ev] + rest.trace)
  {
    assert AllFaithful(env, [ev]);
    AllFaithfulConcat(env, [ev], rest.trace);
    assert AllStored(st1.store, [ev]);
    AllStoredConcat(st1.store, rest.state.store, [ev], rest.trace);
  }

  /** A record present in a file is present in any file that extends it. */
  lemma ExistsPreserved(f: StoreFile, g: StoreFile, rec: PaymentRecord)
    requires Load(f) <= Load(g) && RecordExists(f, rec)
    ensures RecordExists(g, rec)
  {
    var i :| 0 <= i < |Load(f)| && RowKey(Load(f)[i]) == RecordKey(rec);
    assert Load(g)[i] == Load(f)[i];
  }

  /** The senders of the search failures a trace reports, in order. */
  function FailedSenders(t: seq<Event>): seq<string> {
    if t == [] then [] else (if t[0].SearchFailed? then [t[0].sender] else []) + FailedSenders(t[1..])
  }

  /** The senders whose search raises, in order. */
  function FailingSearches(env: Env, senders: seq<string>): seq<string> {
    if senders == [] then []
    else (if env.mail.search(senders[0]).None? then [senders[0]] else []) + FailingSearches(env, senders[1..])
  }

  /** The shape of a pass over `senders`: sender by sender, in order, a search
      that raises gives one `SearchFailed` event, and a search that lists
      `ids` gives a segment with the shape of the inner loop over `ids`: one
      event per listed id, ending at the first whose handling raised. */
  ghost predicate SendersShape(env: Env, senders: seq<string>, t: seq<Event>)
    decreases |senders|
  {
    if senders == [] then t == []
    else match env.mail.search(senders[0])
      case None => t != [] && t[0] == SearchFailed(senders[0]) && SendersShape(env, senders[1..], t[1..])
      case Some(ids) => exists n :: 0 <= n <= |t| && IdsShape(ids, t[..n]) && SendersShape(env, senders[1..], t[n..])
  }

  /** The first sender's segment followed by the rest's shape is the shape. */
  lemma SendersShapeCons(env: Env, senders: seq<string>, a: seq<Event>, b: seq<Event>)
    requires senders != []
    requires env.mail.search(senders[0]).None? ==> a == [SearchFailed(senders[0])]
    requires env.mail.search(senders[0]).Some? ==> IdsShape(env.mail.search(senders[0]).value, a)
    requires SendersShape(env, senders[1..], b)
    ensures SendersShape(env, senders, a + b)
  {
    var t := a + b;
    assert t[..|a|] == a && t[|a|..] == b;
    if env.mail.search(senders[0]).None? {
      assert t[1..] == b;
    }
  }

  /** The outer loop over senders: a search that raises is logged and skipped,
      and an exception within one sender's ids abandons only that sender. So the
      search failures are reported for exactly the failing senders, in order,
      and every sender whose search succeeds has its ids left quiet. */
  function ProcessSenders(env: Env, st: State, senders: seq<string>): (r: Pass)
    ensures Accounts(env, st, r)
    ensures SkipsExact(st.seen, r.trace)
    ensures StoreChanges(env, st.store, r.state.store, r.trace)
    ensures FailedSenders(r.trace) == FailingSearches(env, senders)
    ensures SendersQuiet(env, r.state.seen, senders)
    ensures SendersShape(env, senders, r.trace)
    decreases |senders|
  {
    if senders == [] then
      Pass(st, 0, [])
    else
      var first := match env.mail.search(senders[0])
                   case None => Pass(st, 0, [SearchFailed(senders[0])])
                   case Some(ids) => ProcessIds(env, st, ids);
      assert Accounts(env, st, first) && SkipsExact(st.seen, first.trace)
          && StoreChanges(env, st.store, first.state.store, first.trace) by {
        if env.mail.search(senders[0]).None? {
          SearchFailedPass(env, st, senders[0]);
        }
      }
      var rest := ProcessSenders(env, first.state, senders[1..]);
      PassesCompose(env, st, first, rest);
      PassesExact(env, st, first, rest);
      FailedSendersConcat(first.trace, rest.trace);
      assert FailedSenders(first.trace) == (if env.mail.search(senders[0]).None? then [senders[0]] else []) by {
        if env.mail.search(senders[0]).Some? {
          NoFailedSenders(first.trace);
        } else {
          assert first.trace[1..] == [];
        }
      }
      SendersQuietStep(env, senders, first.state.seen, rest.state.seen, rest.trace);
      SendersShapeCons(env, senders, first.trace, rest.trace);
      Pass(rest.state, first.count + rest.count, first.trace + rest.trace)
  }

  /** A sender whose search raises contributes one logged event and changes
      nothing. */
  lemma SearchFailedPass(env: Env, st: State, sender: string)
    requires env.mail.search(sender).None?
    ensures var p := Pass(st, 0, [SearchFailed(sender)]);
            Accounts(env, st, p) && SkipsExact(st.seen, p.trace) && StoreChanges(env, st.store, st.store, p.trace)
  {
    var t := [SearchFailed(sender)];
    assert t[1..] == [];
    assert Marked(t) == {};
    assert Faithful(env, t[0]);
    assert AllFaithful(env, t);
    assert Load(st.store) + [] == Load(st.store);
  }

  lemma {:induction false} FailedSendersConcat(a: seq<Event>, b: seq<Event>)
    ensures FailedSenders(a + b) == FailedSenders(a) + FailedSenders(b)
  {
    if a != [] {
      assert (a + b)[1..] == a[1..] + b;
      FailedSendersConcat(a[1..], b);
    } else {
      assert a + b == b;
    }
  }

  lemma {:induction false} NoFailedSenders(t: seq<Event>)
    requires forall i :: 0 <= i < |t| ==> !t[i].SearchFailed?
    ensures FailedSenders(t) == []
  {
    if t != [] {
      NoFailedSenders(t[1..]);
    }
  }

  /** The first sender's ids are quiet after its pass, and the rest of the
      senders' passes only add fetched ids, so every sender stays quiet. */
  lemma SendersQuietStep(env: Env, senders: seq<string>, seen1: set<string>, after: set<string>, rest: seq<Event>)
    requires senders != []
    requires env.mail.search(senders[0]).Some? ==> Quiet(env, seen1, env.mail.search(senders[0]).value)
    requires SendersQuiet(env, after, senders[1..])
    requires after == seen1 + Marked(rest) && AllFaithful(env, rest)
    ensures SendersQuiet(env, after, senders)
  {
    MarkedFetched(env, rest);
    forall k | 0 <= k < |senders| && env.mail.search(senders[k]).Some?
      ensures Quiet(env, after, env.mail.search(senders[k]).value)
    {
      if k == 0 {
        QuietGrows(env, seen1, after, env.mail.search(senders[0]).value);
      } else {
        assert senders[1..][k - 1] == senders[k];
      }
    }
  }

  /** Two consecutive passes account for their concatenation. */
  lemma PassesCompose(env: Env, st: State, a: Pass, b: Pass)
    requires Accounts(env, st, a) && Accounts(env, a.state, b)
    ensures Accounts(env, st, Pass(b.state, a.count + b.count, a.trace + b.trace))
  {
    MarkedConcat(a.trace, b.trace);
    SavedCountConcat(a.trace, b.trace);
    MarksFreshConcat(st.seen, a.trace, b.trace);
    AllFaithfulConcat(env, a.trace, b.trace);
    AllStoredConcat(a.state.store, b.state.store, a.trace, b.trace);
  }

  /** Two consecutive passes that each skip exactly and change the
      spreadsheet only by their saves do so together. */
  lemma PassesExact(env: Env, st: State, a: Pass, b: Pass)
    requires Accounts(env, st, a) && Accounts(env, a.state, b)
    requires SkipsExact(st.seen, a.trace) && SkipsExact(a.state.seen, b.trace)
    requires StoreChanges(env, st.store, a.state.store, a.trace)
    requires StoreChanges(env, a.state.store, b.state.store, b.trace)
    ensures SkipsExact(st.seen, a.trace + b.trace)
    ensures StoreChanges(env, st.store, b.state.store, a.trace + b.trace)
  {
    SkipsExactConcat(st.seen, a.trace, b.trace);
    StoreChangesCompose(env, st.store, a.state.store, b.state.store, a.trace, b.trace);
  }

  lemma {:induction false} SkipsExactConcat(seen: set<string>, a: seq<Event>, b: seq<Event>)
    ensures SkipsExact(seen, a + b) <==> SkipsExact(seen, a) && SkipsExact(seen + Marked(a), b)
    decreases |a|
  {
    if a == [] {
      assert a + b == b;
      assert seen + Marked(a) == seen;
    } else {
      assert (a + b)[1..] == a[1..] + b;
      assert (a + b)[..1] == a[..1];
      var seen1 := seen + Marked(a[..1]);
      SkipsExactConcat(seen1, a[1..], b);
      assert Marked(a[..1]) == (if a[0].Marks() then {a[0].id} else {});
      assert seen1 + Marked(a[1..]) == seen + Marked(a);
    }
  }

  lemma {:induction false} AppendedConcat(rows: seq<Row>, a: seq<Event>, b: seq<Event>)
    ensures Appended(rows, a + b) == Appended(rows, a) + Appended(rows + Appended(rows, a), b)
    decreases |a|
  {
    if a == [] {
      assert a + b == b;
      assert rows + [] == rows;
    } else {
      assert (a + b)[1..] == a[1..] + b;
      assert (a + b)[0] == a[0];
      if a[0].Saved? && !RecordExists(Readable(rows), a[0].rec) {
        var rows1 := rows + [ToDict(a[0].rec)];
        AppendedConcat(rows1, a[1..], b);
        assert rows1 + Appended(rows1, a[1..]) == rows + Appended(rows, a);
      } else {
        AppendedConcat(rows, a[1..], b);
      }
    }
  }

  /** The spreadsheet changes of two consecutive passes compose. */
  lemma StoreChangesCompose(env: Env, f: StoreFile, g: StoreFile, h: StoreFile, a: seq<Event>, b: seq<Event>)
    requires AllFaithful(env, a)
    requires StoreChanges(env, f, g, a) && StoreChanges(env, g, h, b)
    ensures StoreChanges(env, f, h, a + b)
  {
    AppendRowsCompose(f, g, h, a, b);
    FailedSavesCompose(env, g, h, a, b);
  }

  /** The files of two consecutive traces compose. */
  lemma AppendRowsCompose(f: StoreFile, g: StoreFile, h: StoreFile, a: seq<Event>, b: seq<Event>)
    requires g == AppendRows(f, Appended(Load(f), a))
    requires h == AppendRows(g, Appended(Load(g), b))
    ensures h == AppendRows(f, Appended(Load(f), a + b))
  {
    AppendedConcat(Load(f), a, b);
    var xa := Appended(Load(f), a);
    var xb := Appended(Load(g), b);
    assert Load(g) == Load(f) + xa;
    if xa != [] && xb != [] {
      assert Load(f) + xa + xb == Load(f) + (xa + xb);
    } else if xa == [] {
      assert xa + xb == xb;
    } else {
      assert xa + xb == xa;
    }
  }

  /** A failed save of either trace is of a record the final file lacks: the
      first trace's failures happen only on an unwritable file, which the
      second trace leaves alone. */
  lemma FailedSavesCompose(env: Env, g: StoreFile, h: StoreFile, a: seq<Event>, b: seq<Event>)
    requires AllFaithful(env, a)
    requires forall i :: 0 <= i < |a| && a[i].SaveFailed? ==> !RecordExists(g, a[i].rec)
    requires forall i :: 0 <= i < |b| && b[i].SaveFailed? ==> !RecordExists(h, b[i].rec)
    requires !env.writable ==> h == g
    ensures forall i :: 0 <= i < |a + b| && (a + b)[i].SaveFailed? ==> !RecordExists(h, (a + b)[i].rec)
  {
    var t := a + b;
    forall i | 0 <= i < |t| && t[i].SaveFailed? ensures !RecordExists(h, t[i].rec) {
      if i < |a| {
        assert t[i] == a[i];
        assert Faithful(env, a[i]);
      } else {
        assert t[i] == b[i - |a|];
      }
    }
  }

  lemma {:induction false} MarkedConcat(a: seq<Event>, b: seq<Event>)
    ensures Marked(a + b) == Marked(a) + Marked(b)
  {
    if a != [] {
      assert (a + b)[1..] == a[1..] + b;
      MarkedConcat(a[1..], b);
    } else {
      assert a + b == b;
    }
  }

  lemma {:induction false} SavedCountConcat(a: seq<Event>, b: seq<Event>)
    ensures SavedCount(a + b) == SavedCount(a) + SavedCount(b)
  {
    if a != [] {
      assert (a + b)[1..] == a[1..] + b;
      SavedCountConcat(a[1..], b);
    } else {
      assert a + b == b;
    }
  }

  lemma {:induction false} MarksFreshConcat(seen: set<string>, a: seq<Event>, b: seq<Event>)
    ensures MarksFresh(seen, a + b) <==> MarksFresh(seen, a) && MarksFresh(seen + Marked(a), b)
    decreases |a|
  {
    if a == [] {
      assert a + b == b;
      assert seen + Marked(a) == seen;
    } else {
      assert (a + b)[1..] == a[1..] + b;
      assert (a + b)[..1] == a[..1];
      var seen1 := seen + Marked(a[..1]);
      MarksFreshConcat(seen1, a[1..], b);
      assert Marked(a[..1]) == (if a[0].Marks() then {a[0].id} else {});
      assert seen1 + Marked(a[1..]) == seen + Marked(a);
    }
  }

  /** `SkipsExact` read event by event: an event skips its id exactly when the
      id was processed before the pass or marked by an earlier event. */
  lemma {:induction false} SkipsExactAt(seen: set<string>, t: seq<Event>, i: nat)
    requires SkipsExact(seen, t) && i < |t| && !t[i].SearchFailed?
    ensures t[i].Skipped? <==> t[i].id in seen + Marked(t[..i])
    decreases i
  {
    if i == 0 {
      assert t[..0] == [];
    } else {
      var s1 := seen + Marked(t[..1]);
      SkipsExactAt(s1, t[1..], i - 1);
      assert t[1..][i - 1] == t[i];
      assert t[..1] + t[1..][..i - 1] == t[..i];
      MarkedConcat(t[..1], t[1..][..i - 1]);
    }
  }

  /** Any pass over `ids` that meets the contract of `ProcessIds` stops at a
      new id whose handling raises: that event is `Aborted` and is the last,
      so the sender's remaining ids are abandoned. */
  lemma BrokenFetchEndsPass(env: Env, st: State, ids: seq<string>, r: Pass, i: nat)
    requires Accounts(env, st, r) && IdsShape(ids, r.trace) && SkipsExact(st.seen, r.trace)
    requires i < |r.trace| && r.trace[i].id !in st.seen + Marked(r.trace[..i])
    requires env.mail.fetch(r.trace[i].id).Broken?
    ensures r.trace[i].Aborted? && |r.trace| == i + 1
  {
    SkipsExactAt(st.seen, r.trace, i);
    assert Faithful(env, r.trace[i]);
  }

  /** Any pass that meets the contract (its events faithful, its file change
      as `StoreChanges` says) reports a save of a record the file held already
      as `Saved`, so it is counted, even when the file cannot be
      written: `save_record` returns without writing for a duplicate. */
  lemma DuplicateSaveCounted(env: Env, st: State, r: Pass, i: nat)
    requires AllFaithful(env, r.trace) && StoreChanges(env, st.store, r.state.store, r.trace)
    requires i < |r.trace| && (r.trace[i].Saved? || r.trace[i].SaveFailed?)
    requires RecordExists(st.store, r.trace[i].rec)
    ensures r.trace[i].Saved?
  {
    assert Faithful(env, r.trace[i]);
  }

  /** A trace without saves appends no rows. */
  lemma {:induction false} AppendedWithoutSaves(rows: seq<Row>, t: seq<Event>)
    requires forall i :: 0 <= i < |t| ==> !t[i].Saved?
    ensures Appended(rows, t) == []
    decreases |t|
  {
    if t != [] {
      assert !t[0].Saved?;
      AppendedWithoutSaves(rows, t[1..]);
    }
  }

  /** Any pass that meets the contract and saves nothing leaves the file as
      it was: no other row can appear. */
  lemma NoSaveKeepsFile(env: Env, st: State, r: Pass)
    requires StoreChanges(env, st.store, r.state.store, r.trace)
    requires forall i :: 0 <= i < |r.trace| ==> !r.trace[i].Saved?
    ensures r.state.store == st.store
  {
    AppendedWithoutSaves(Load(st.store), r.trace);
  }

  /** `id` is among the ids the search for `sender` returned. */
  predicate ListedBy(env: Env, sender: string, id: string) {
    env.mail.search(sender).Some? && id in env.mail.search(sender).value
  }

  /** Under the shape, every event other than a search failure names an id
      that some sender's search listed. */
  lemma {:induction false} EventsListed(env: Env, senders: seq<string>, t: seq<Event>, i: nat)
    requires SendersShape(env, senders, t) && i < |t| && !t[i].SearchFailed?
    ensures exists k :: 0 <= k < |senders| && ListedBy(env, senders[k], t[i].id)
    decreases |senders|
  {
    if env.mail.search(senders[0]).None? {
      EventsListed(env, senders[1..], t[1..], i - 1);
      var k :| 0 <= k < |senders[1..]| && ListedBy(env, senders[1..][k], t[1..][i - 1].id);
      assert senders[k + 1] == senders[1..][k] && t[i] == t[1..][i - 1];
    } else {
      var ids := env.mail.search(senders[0]).value;
      var n :| 0 <= n <= |t| && IdsShape(ids, t[..n]) && SendersShape(env, senders[1..], t[n..]);
      if i < n {
        assert t[..n][i] == t[i];
        assert ListedBy(env, senders[0], t[i].id);
      } else {
        EventsListed(env, senders[1..], t[n..], i - n);
        var k :| 0 <= k < |senders[1..]| && ListedBy(env, senders[1..][k], t[n..][i - n].id);
        assert senders[k + 1] == senders[1..][k] && t[i] == t[n..][i - n];
      }
    }
  }

  /** Under the shape, the pass over one sender whose search lists `ids` has
      the inner loop's shape: it stops at the first id whose handling raised. */
  lemma SingleSenderShape(env: Env, sender: string, ids: seq<string>, t: seq<Event>)
    requires env.mail.search(sender) == Some(ids)
    requires SendersShape(env, [sender], t)
    ensures IdsShape(ids, t)
  {
    var n :| 0 <= n <= |t| && IdsShape(ids, t[..n]) && SendersShape(env, [sender][1..], t[n..]);
    assert t[n..] == [];
    assert t[..n] == t;
  }

  /** Under the shape, when every search succeeds and lists nothing there is
      no event at all. */
  lemma {:induction false} NothingListedNoEvents(env: Env, senders: seq<string>, t: seq<Event>)
    requires SendersShape(env, senders, t)
    requires forall k :: 0 <= k < |senders| ==> env.mail.search(senders[k]) == Some([])
    ensures t == []
    decreases |senders|
  {
    if senders != [] {
      assert env.mail.search(senders[0]) == Some([]);
      var n :| 0 <= n <= |t| && IdsShape([], t[..n]) && SendersShape(env, senders[1..], t[n..]);
      assert n == 0;
      assert t[n..] == t;
      forall k | 0 <= k < |senders[1..]| ensures env.mail.search(senders[1..][k]) == Some([]) {
        assert senders[1..][k] == senders[k + 1];
      }
      NothingListedNoEvents(env, senders[1..], t);
    }
  }

  // ---------------------------------------------------------------------------
  // One cycle (`process_new_emails`, `run_single_check`)
  // ---------------------------------------------------------------------------

  /** `process_new_emails`: the senders are polled in sorted order, so the
      search failures are reported in that order, and every sender's ids are
      left quiet. */
  function ProcessNewEmails(env: Env, st: State): (r: Pass)
    ensures Accounts(env, st, r)
    ensures SkipsExact(st.seen, r.trace)
    ensures StoreChanges(env, st.store, r.state.store, r.trace)
    ensures FailedSenders(r.trace) == FailingSearches(env, SupportedSenders())
    ensures SendersQuiet(env, r.state.seen, SupportedSenders())
    ensures SendersShape(env, SupportedSenders(), r.trace)
  {
    ProcessSenders(env, st, SupportedSenders())
  }

  /** The dictionary `run_single_check` returns (the duration is left out). */
  datatype CheckResult = CheckResult(recordsProcessed: nat, totalEmailsProcessed: nat)

  /** `run_single_check`: the cycle's count of saved records and the size of
      the processed set afterwards, which is the size before plus the number of
      ids the cycle marked. */
  function RunSingleCheck(env: Env, st: State): (r: (State, CheckResult))
    ensures var p := ProcessNewEmails(env, st);
            && r.0 == p.state
            && r.1.recordsProcessed == SavedCount(p.trace)
            && r.1.totalEmailsProcessed == |st.seen + Marked(p.trace)|
  {
    var p := ProcessNewEmails(env, st);
    (p.state, CheckResult(p.count, |p.state.seen|))
  }

  // ---------------------------------------------------------------------------
  // What a cycle guarantees
  // ---------------------------------------------------------------------------

  /** An id a trace marks is the id of one of its marking events. */
  lemma {:induction false} MarkedWitness(t: seq<Event>, x: string)
    requires x in Marked(t)
    ensures exists i :: 0 <= i < |t| && t[i].Marks() && t[i].id == x
    decreases |t|
  {
    if !(t[0].Marks() && t[0].id == x) {
      MarkedWitness(t[1..], x);
      var i :| 0 <= i < |t[1..]| && t[1..][i].Marks() && t[1..][i].id == x;
      assert t[i + 1] == t[1..][i];
    }
  }

  /** Every id a faithful trace marks was fetched. */
  lemma MarkedFetched(env: Env, t: seq<Event>)
    requires AllFaithful(env, t)
    ensures forall x :: x in Marked(t) ==> env.mail.fetch(x).Fetched?
  {
    forall x | x in Marked(t) ensures env.mail.fetch(x).Fetched? {
      MarkedWitness(t, x);
      var i :| 0 <= i < |t| && t[i].Marks() && t[i].id == x;
      assert Faithful(env, t[i]);
    }
  }

  /** A message whose fetch gives `None` or raises is never added to the
      processed set, so the next cycle tries it again. */
  lemma UnfetchedNeverMarked(env: Env, st: State, id: string)
    requires !env.mail.fetch(id).Fetched?
    ensures id in ProcessNewEmails(env, st).state.seen <==> id in st.seen
  {
    MarkedFetched(env, ProcessNewEmails(env, st).trace);
  }

  /** The number of events of a trace that mark their id. */
  function MarkCount(t: seq<Event>): nat {
    if t == [] then 0 else (if t[0].Marks() then 1 else 0) + MarkCount(t[1..])
  }

  /** A trace whose marks are fresh marks pairwise distinct ids, none of them
      in `seen`. */
  lemma {:induction false} FreshMarksDistinct(seen: set<string>, t: seq<Event>)
    requires MarksFresh(seen, t)
    ensures forall i :: 0 <= i < |t| && t[i].Marks() ==> t[i].id !in seen
    ensures forall i, j :: 0 <= i < j < |t| && t[i].Marks() && t[j].Marks() ==> t[i].id != t[j].id
    decreases |t|
  {
    if t != [] {
      var s1 := seen + Marked(t[..1]);
      assert Marked(t[..1]) == if t[0].Marks() then {t[0].id} else {};
      FreshMarksDistinct(s1, t[1..]);
      forall i | 0 <= i < |t| && t[i].Marks() ensures t[i].id !in seen {
        if i > 0 { assert t[i] == t[1..][i - 1]; }
      }
      forall i, j | 0 <= i < j < |t| && t[i].Marks() && t[j].Marks() ensures t[i].id != t[j].id {
        assert t[j] == t[1..][j - 1];
        if i > 0 { assert t[i] == t[1..][i - 1]; }
      }
    }
  }

  /** With fresh marks the processed set grows by exactly the number of
      marking events. */
  lemma {:induction false} FreshMarksCounted(seen: set<string>, t: seq<Event>)
    requires MarksFresh(seen, t)
    ensures |seen + Marked(t)| == |seen| + MarkCount(t)
    decreases |t|
  {
    if t != [] {
      var m := if t[0].Marks() then {t[0].id} else {};
      var c := if t[0].Marks() then 1 else 0;
      FreshHead(seen, t);
      MarkedHead(t);
      FreshMarksCounted(seen + m, t[1..]);
      UnionCount(seen, m, Marked(t[1..]), Marked(t), c, MarkCount(t[1..]));
    }
  }

  /** The first event of a fresh trace adds its id, if any, as a new one. */
  lemma FreshHead(seen: set<string>, t: seq<Event>)
    requires t != [] && MarksFresh(seen, t)
    ensures var m := if t[0].Marks() then {t[0].id} else {};
            && MarksFresh(seen + m, t[1..])
            && |seen + m| == |seen| + (if t[0].Marks() then 1 else 0)
  {
    assert Marked(t[..1]) == if t[0].Marks() then {t[0].id} else {};
    if t[0].Marks() {
      assert t[0].id !in seen;
    } else {
      assert seen + {} == seen;
    }
  }

  /** `Marked` and `MarkCount` of a trace, from its first event and the rest. */
  lemma MarkedHead(t: seq<Event>)
    requires t != []
    ensures Marked(t) == (if t[0].Marks() then {t[0].id} else {}) + Marked(t[1..])
    ensures MarkCount(t) == (if t[0].Marks() then 1 else 0) + MarkCount(t[1..])
  {
  }

  lemma UnionCount(seen: set<string>, m: set<string>, rest: set<string>, all: set<string>, c: nat, k: nat)
    requires all == m + rest
    requires |seen + m| == |seen| + c
    requires |(seen + m) + rest| == |seen + m| + k
    ensures |seen + all| == |seen| + c + k
  {
    assert seen + all == (seen + m) + rest;
  }

  /** `totalEmailsProcessed` is the earlier size of the processed set plus one
      for each message the cycle processed: no message is processed twice in a
      cycle, nor one processed in an earlier cycle. */
  lemma CheckCountsEachEmailOnce(env: Env, st: State)
    ensures var p := ProcessNewEmails(env, st);
            && RunSingleCheck(env, st).1.totalEmailsProcessed == |st.seen| + MarkCount(p.trace)
            && (forall i, j :: 0 <= i < j < |p.trace| && p.trace[i].Marks() && p.trace[j].Marks() ==> p.trace[i].id != p.trace[j].id)
            && (forall i :: 0 <= i < |p.trace| && p.trace[i].Marks() ==> p.trace[i].id !in st.seen)
  {
    FreshMarksCounted(st.seen, ProcessNewEmails(env, st).trace);
    FreshMarksDistinct(st.seen, ProcessNewEmails(env, st).trace);
  }

  /** Re-running the inner loop over `ids` with processed set `seen` would do
      nothing: up to the first message whose fetch raises, every id is either
      processed already or cannot be fetched. */
  ghost predicate Quiet(env: Env, seen: set<string>, ids: seq<string>)
    decreases |ids|
  {
    if ids == [] then true
    else if ids[0] in seen then Quiet(env, seen, ids[1..])
    else match env.mail.fetch(ids[0])
      case Absent => Quiet(env, seen, ids[1..])
      case Broken => true
      case Fetched(_) => false
  }

  lemma {:induction false} QuietIdsUnchanged(env: Env, st: State, ids: seq<string>)
    requires Quiet(env, st.seen, ids)
    ensures ProcessIds(env, st, ids).state == st && ProcessIds(env, st, ids).count == 0
    decreases |ids|
  {
    if ids != [] && (ids[0] in st.seen || env.mail.fetch(ids[0]).Absent?) {
      QuietIdsUnchanged(env, st, ids[1..]);
    }
  }

  /** Adding fetched ids to the processed set keeps a list quiet. */
  lemma {:induction false} QuietGrows(env: Env, s: set<string>, s2: set<string>, ids: seq<string>)
    requires Quiet(env, s, ids) && s <= s2
    requires forall x :: x in s2 && x !in s ==> env.mail.fetch(x).Fetched?
    ensures Quiet(env, s2, ids)
    decreases |ids|
  {
    if ids != [] && (ids[0] in s || env.mail.fetch(ids[0]).Absent?) {
      QuietGrows(env, s, s2, ids[1..]);
    }
  }

  /** Every searched sender's ids are quiet. */
  ghost predicate SendersQuiet(env: Env, seen: set<string>, senders: seq<string>) {
    forall k :: 0 <= k < |senders| && env.mail.search(senders[k]).Some? ==> Quiet(env, seen, env.mail.search(senders[k]).value)
  }

  lemma {:induction false} QuietSendersUnchanged(env: Env, st: State, senders: seq<string>)
    requires SendersQuiet(env, st.seen, senders)
    ensures ProcessSenders(env, st, senders).state == st && ProcessSenders(env, st, senders).count == 0
    decreases |senders|
  {
    if senders != [] {
      if env.mail.search(senders[0]).Some? {
        var ids := env.mail.search(senders[0]).value;
        assert Quiet(env, st.seen, ids);
        QuietIdsUnchanged(env, st, ids);
      }
      forall k | 0 <= k < |senders[1..]| && env.mail.search(senders[1..][k]).Some?
        ensures Quiet(env, st.seen, env.mail.search(senders[1..][k]).value)
      {
        assert senders[1..][k] == senders[k + 1];
      }
      QuietSendersUnchanged(env, st, senders[1..]);
    }
  }

  /** The processed set makes a cycle idempotent: run again against the same
      mailbox, a second cycle saves nothing, counts nothing and leaves the
      processed set and the spreadsheet as the first left them. */
  lemma SecondCycleChangesNothing(env: Env, st: State)
    ensures var r1 := ProcessNewEmails(env, st);
            var r2 := ProcessNewEmails(env, r1.state);
            r2.state == r1.state && r2.count == 0
  {
    var r1 := ProcessNewEmails(env, st);
    QuietSendersUnchanged(env, r1.state, SupportedSenders());
  }

  /** When the spreadsheet can be written every save succeeds, so what a pass
      does to the processed set, the events it reports and its count do not
      depend on what the spreadsheet already holds. */
  lemma {:induction false} WritableIdsIgnoreStore(env: Env, st: State, st2: State, ids: seq<string>)
    requires env.writable && st.seen == st2.seen
    ensures ProcessIds(env, st, ids).trace == ProcessIds(env, st2, ids).trace
    ensures ProcessIds(env, st, ids).state.seen == ProcessIds(env, st2, ids).state.seen
    ensures ProcessIds(env, st, ids).count == ProcessIds(env, st2, ids).count
    decreases |ids|
  {
    if ids != [] {
      var (st1, ev) := StepId(env, st, ids[0]);
      var (st21, ev2) := StepId(env, st2, ids[0]);
      assert ev == ev2 && st1.seen == st21.seen;
      if !ev.Aborted? {
        WritableIdsIgnoreStore(env, st1, st21, ids[1..]);
      }
    }
  }

  lemma {:induction false} WritableSendersIgnoreStore(env: Env, st: State, st2: State, senders: seq<string>)
    requires env.writable && st.seen == st2.seen
    ensures ProcessSenders(env, st, senders).trace == ProcessSenders(env, st2, senders).trace
    ensures ProcessSenders(env, st, senders).state.seen == ProcessSenders(env, st2, senders).state.seen
    ensures ProcessSenders(env, st, senders).count == ProcessSenders(env, st2, senders).count
    decreases |senders|
  {
    if senders != [] {
      match env.mail.search(senders[0])
      case None =>
        WritableSendersIgnoreStore(env, st, st2, senders[1..]);
      case Some(ids) =>
        var a := ProcessIds(env, st, ids);
        var b := ProcessIds(env, st2, ids);
        WritableIdsIgnoreStore(env, st, st2, ids);
        WritableSendersIgnoreStore(env, a.state, b.state, senders[1..]);
    }
  }

  lemma AllStoredSplit(f: StoreFile, a: seq<Event>, b: seq<Event>)
    requires AllStored(f, a + b)
    ensures AllStored(f, a) && AllStored(f, b)
  {
    forall i | 0 <= i < |a| && a[i].Saved? ensures RecordExists(f, a[i].rec) {
      assert a[i] == (a + b)[i];
    }
    forall i | 0 <= i < |b| && b[i].Saved? ensures RecordExists(f, b[i].rec) {
      assert b[i] == (a + b)[|a| + i];
    }
  }

  /** A pass whose every saved record is already in the spreadsheet leaves
      the spreadsheet unchanged: `save_record` skips each of them. */
  lemma {:induction false} ReplayKeepsIdsStore(env: Env, st: State, ids: seq<string>)
    requires AllStored(st.store, ProcessIds(env, st, ids).trace)
    ensures ProcessIds(env, st, ids).state.store == st.store
    decreases |ids|
  {
    if ids != [] {
      var (st1, ev) := StepId(env, st, ids[0]);
      var t := ProcessIds(env, st, ids).trace;
      assert t[0] == ev;
      if ev.Saved? {
        assert RecordExists(st.store, ev.rec);
      }
      assert st1.store == st.store;
      if !ev.Aborted? {
        var rest := ProcessIds(env, st1, ids[1..]);
        assert t == [ev] + rest.trace;
        forall i | 0 <= i < |rest.trace| && rest.trace[i].Saved? ensures RecordExists(st1.store, rest.trace[i].rec) {
          assert rest.trace[i] == t[i + 1];
        }
        ReplayKeepsIdsStore(env, st1, ids[1..]);
      }
    }
  }

  lemma {:induction false} ReplayKeepsSendersStore(env: Env, st: State, senders: seq<string>)
    requires AllStored(st.store, ProcessSenders(env, st, senders).trace)
    ensures ProcessSenders(env, st, senders).state.store == st.store
    decreases |senders|
  {
    if senders != [] {
      var first := match env.mail.search(senders[0])
                   case None => Pass(st, 0, [SearchFailed(senders[0])])
                   case Some(ids) => ProcessIds(env, st, ids);
      var rest := ProcessSenders(env, first.state, senders[1..]);
      assert ProcessSenders(env, st, senders).trace == first.trace + rest.trace;
      AllStoredSplit(st.store, first.trace, rest.trace);
      if env.mail.search(senders[0]).Some? {
        ReplayKeepsIdsStore(env, st, env.mail.search(senders[0]).value);
      }
      assert first.state.store == st.store;
      ReplayKeepsSendersStore(env, first.state, senders[1..]);
    }
  }

  /** After a restart the processed set is empty again. Re-running a cycle
      against the same mailbox then processes the same messages again and
      reports the same `recordsProcessed`. Every record it saves is found by the
      duplicate check, so the spreadsheet is left unchanged. */
  lemma RestartRecountsWithoutDuplicating(env: Env, f: StoreFile)
    requires env.writable
    ensures var r1 := ProcessNewEmails(env, State({}, f));
            var r2 := ProcessNewEmails(env, State({}, r1.state.store));
            && r2.state == r1.state
            && r2.count == r1.count
            && r2.trace == r1.trace
  {
    var r1 := ProcessNewEmails(env, State({}, f));
    var st2 := State({}, r1.state.store);
    WritableSendersIgnoreStore(env, State({}, f), st2, SupportedSenders());
    ReplayKeepsSendersStore(env, st2, SupportedSenders());
  }

  /** A message without a usable date is stamped with the current day, so the
      same message processed on two different days gets two different keys and
      is stored twice after a restart. */
  lemma DateFallbackBreaksDedup(e: Email, now1: DateTime, now2: DateTime, names: NameSearch)
    requires e.date.None? && now1.date != now2.date
    requires ProcessEmail(e, now1, names).Some?
    ensures ProcessEmail(e, now2, names).Some?
    ensures RecordKey(ProcessEmail(e, now1, names).value) != RecordKey(ProcessEmail(e, now2, names).value)
  {
  }
}

=== FILE: wrappers.dfy ===
/** Option and Result: the model's stand-ins for Python's `None` returns and raised exceptions. */
module Wrappers {

  /** A value that may be absent (Python's `X | None`). */
  datatype Option<+T> = None | Some(value: T) {

    /** The wrapped value, or `default` when absent. */
    function GetOr(default: T): T {
      match this
      case Some(v) => v
      case None => default
    }
  }

  /** The outcome of an operation that either returns a value or raises an error. */
  datatype Result<+R, +E> = Success(value: R) | Failure(error: E)
}
